=== FILE: README.md ===
# floorspace.js editing geometry and model actions, in Dafny

This project models two parts of the floorspace.js floor-plan editor:

- **The editing geometry of the drawing grid** (`src/components/Grid/drawing.js`):
  - the dimension-line builder `distanceMeasure`: label anchor, rounded label value, inset line, arrowhead turns, and its configurable scales, offset and label position;
  - the daylighting-control guideline: the segment from a control to the nearest edge, split into a piece along the edge and a perpendicular remainder, with pieces of length 0.01 or less dropped;
  - the resize-cursor table and `bestResizeCursor`;
  - the image gesture controller of `drawImage`: the pointer variables `startX`, `startY`, `currX` and `currY` shared by the move, resize and rotate drags, and the update each drag end sends.
- **The models store's actions** (`src/store/modules/models/actions.js`):
  - default names for new stories, spaces and shading;
  - the face cascade of `destroySpace`;
  - the payload sanitiser of `update{Story,Space,Shading,Image}WithData`;
  - the library-object update;
  - the height rule for new images.

Geometry is over `real`. The square root, cosine and sine are never computed, and the helper `edgeDirection` is not part of this model: its value is a free parameter. Their results are parameters, together with the facts the proofs need:

- a distance `d` satisfies `d >= 0` and `d * d` equals the squared distance;
- a unit vector has squared norm 1.

Distances are compared through squared distances. Lemmas show that this selects and filters the same way as comparing the distances themselves.

Effects of the store actions are modelled as follows:

- an action's `commit` and `dispatch` calls are returned, in order, as a list of effects;
- a TypeError (a property read on `undefined` or `null`, calling `.find` on a non-array) is returned as a flag, and effects issued before it still stand;
- JavaScript values are a datatype with `undefined`, `null`, numbers with `NaN`, strings, arrays and objects as finite maps;
- `undefined` in gesture arithmetic is modelled as `NaN`, which is how it behaves there.

Modules:

| file | module | models |
|---|---|---|
| options.dfy | Options | optional values |
| geometry.dfy | Geometry | points, vectors, segments, squared distance, the distance/unit-vector facts |
| measure.dfy | Measure | `distanceMeasure` |
| guideline.dfy | Guideline | `drawDaylightingControlGuideline` |
| cursor.dfy | Cursors | `RESIZE_CURSORS`, `bestResizeCursor` |
| jsvalues.dfy | JsValues | JavaScript values, property reads, `'' + n` for whole numbers |
| gesture.dfy | Gesture | `drawImage`'s gesture controller and accessors |
| actions.dfy | ModelActions | the store actions |

Two details of the code that the model keeps:

- **Label position:** the setter's own warning (src/components/Grid/drawing.js:146) names the range [0, 1], but any value is stored; a value outside the range only logs that warning (`Measure.DistanceMeasure.LabelPosition`).
- **Short pieces:** the guideline filter (src/components/Grid/drawing.js:255) keeps only pieces longer than 0.01, so a piece of length exactly 0.01 is dropped (`Guideline.Visible`).

## Model

| member | source | states |
|---|---|---|
| Measure.LabelAnchor | src/components/Grid/drawing.js:73-74 | the anchor's offset from the scaled start is `labelPosition` times the scaled segment, in each coordinate |
| Measure.LabelAtStart | src/components/Grid/drawing.js:73-74 | at position 0 the label sits on the scaled start |
| Measure.LabelAtEnd | src/components/Grid/drawing.js:73-74 | at the default position 1 the label sits on the scaled end |
| Measure.LabelAtMiddle | src/components/Grid/drawing.js:73-74 | at position 0.5 the label sits on the midpoint of the scaled segment |
| Measure.Round | src/components/Grid/drawing.js:88 | `Math.round` gives an integer within a half of its argument (halves round up) |
| Measure.RoundedLength | src/components/Grid/drawing.js:85-90 | the label value has two decimals (a whole number of hundredths) and lies within 0.005 of the length, which together fix it as `Math.round(d * 100) / 100` |
| Measure.RoundedLengthIdempotent | src/components/Grid/drawing.js:88 | rounding an already rounded value to two decimals changes nothing |
| Measure.RoundedLengthExample | src/components/Grid/drawing.js:88 | 3.14159 is labelled 3.14 |
| Measure.InsetLine | src/components/Grid/drawing.js:91-104 | the drawn line has the same midpoint as the scaled segment |
| Measure.InsetLineShortens | src/components/Grid/drawing.js:91-104 | the drawn line is the scaled segment shortened by 2 × 11.5 px at the ends, along the unit direction with y flipped |
| Measure.ArrowAdjust | src/components/Grid/drawing.js:111-113 | the arrowheads' base turn is always 0 or 180 |
| Measure.ArrowAdjustRule | src/components/Grid/drawing.js:111-113 | on a vertical segment the base turn is 0 iff the start's y exceeds the end's; otherwise it is 0 iff the start's x exceeds the end's |
| Measure.ArrowAdjustReverse | src/components/Grid/drawing.js:111-113 | reversing a proper segment swaps the base turn between 0 and 180 |
| Measure.ArrowAdjustDegenerate | src/components/Grid/drawing.js:111-113 | a zero-length segment gets base turn 180 |
| Measure.StartArrowRotation | src/components/Grid/drawing.js:107-116 | the start arrowhead's turn is minus the edge angle exactly when, on a vertical segment, the start's y exceeds the end's, or, otherwise, the start's x exceeds the end's; it is 180 minus the edge angle in every other case |
| Measure.EndArrowRotation | src/components/Grid/drawing.js:118-126 | the end arrowhead is always turned 180 degrees further than the start arrowhead |
| Measure.GroupOffsetIsNormal | src/components/Grid/drawing.js:58-63 | the group translation is perpendicular to the segment and has length `lineOffset` |
| Measure.LabelNudgeIsNormal | src/components/Grid/drawing.js:76-84 | the label nudge is perpendicular to the segment and 4 px long |
| Measure.DistanceMeasure.constructor | src/components/Grid/drawing.js:50-54 | identity scales, offset 20, label position 1 |
| Measure.DistanceMeasure.XScale | src/components/Grid/drawing.js:128-132 | without an argument it reports the x scale and changes nothing; with one it replaces only the x scale |
| Measure.DistanceMeasure.YScale | src/components/Grid/drawing.js:133-137 | the same for the y scale |
| Measure.DistanceMeasure.LineOffset | src/components/Grid/drawing.js:138-142 | the same for the line offset |
| Measure.DistanceMeasure.LabelPosition | src/components/Grid/drawing.js:143-150 | any value is stored; a warning is raised exactly for values outside [0, 1]; without an argument it reports the stored value |
| Measure.DistanceMeasure.Render | src/components/Grid/drawing.js:55-126 | the arrowheads sit on the scaled endpoints; the start arrowhead has the start turn and the end arrowhead half a turn more; the line is the inset line, centred between them; the label value is the length rounded to two decimals; the label sits at `labelPosition` along the scaled segment; with a unit normal, the group is moved `lineOffset` and the label 4 px at right angles to the segment |
| Guideline.VisibleIffLonger | src/components/Grid/drawing.js:254-256 | the squared-length test keeps a piece exactly when its length exceeds 0.01 |
| Guideline.Visible | src/components/Grid/drawing.js:255 | a piece that passes the length test has distinct endpoints, so the measurement's unit vectors exist |
| Guideline.Decompose | src/components/Grid/drawing.js:240-253 | `v` runs from the control to its projection; `parallel` starts at `v`'s start, `perp` starts at `parallel`'s end and ends at `v`'s end; the two displacements add up to `v`'s |
| Guideline.PerpIsNormalToEdge | src/components/Grid/drawing.js:240-253 | with a unit edge direction the perpendicular piece is at right angles to the edge |
| Guideline.ParallelAlongEdge | src/components/Grid/drawing.js:243-249 | the parallel piece lies along the edge direction |
| Guideline.KeepVisible | src/components/Grid/drawing.js:254-256 | the filter keeps exactly the pieces longer than 0.01, each as often as it occurs, as an order-preserving subsequence |
| Guideline.ControlGuidelines | src/components/Grid/drawing.js:238-256 | one control yields at most three pieces, a subsequence of `[v, perp, parallel]`; a candidate is among them iff it is longer than 0.01, and then once for each candidate it equals |
| Guideline.FlatMap | src/components/Grid/drawing.js:236-257 | `_.flatMap`: an element is in the result iff it is in the list of some input element |
| Guideline.FlatMapSingle | src/components/Grid/drawing.js:236-257 | over one element the result is that element's list |
| Guideline.FlatMapAppend | src/components/Grid/drawing.js:236-257 | the lists are concatenated in input order: over `xs + ys` the result is the result over `xs` followed by that over `ys` |
| Guideline.FlatMapLength | src/components/Grid/drawing.js:236-257 | lists of at most `k` elements each concatenate to at most `k` per input element |
| Guideline.AllGuidelines | src/components/Grid/drawing.js:236-257 | all controls together yield at most three pieces each, all longer than 0.01; a piece is drawn iff it is among some control's guidelines |
| Guideline.AllGuidelinesSingle | src/components/Grid/drawing.js:236-257 | one control yields exactly its own guidelines |
| Guideline.AllGuidelinesAppend | src/components/Grid/drawing.js:236-257 | the pieces of two runs of controls are the first run's followed by the second's, so a piece two controls share is drawn twice |
| Guideline.AllGuidelinesProper | src/components/Grid/drawing.js:236-262 | no piece handed to the measurement builder has coinciding endpoints |
| Guideline.DaylightingGuideline.constructor | src/components/Grid/drawing.js:223-229 | identity scales; the measurement builder is configured with offset 0 and label position 0.5 |
| Guideline.DaylightingGuideline.XScale | src/components/Grid/drawing.js:265-269 | reports or replaces the x scale only |
| Guideline.DaylightingGuideline.YScale | src/components/Grid/drawing.js:270-274 | reports or replaces the y scale only |
| Guideline.DaylightingGuideline.Render | src/components/Grid/drawing.js:230-262 | the builder gets the chart's scales (its offset and label position are kept), and the pieces drawn are exactly the filtered decomposition |
| Cursors.OppositeEntriesShareCursor | src/components/Grid/drawing.js:278-287 | the table comes in pairs of opposite vectors with the same cursor |
| Cursors.ArgMin | src/components/Grid/drawing.js:299 | `minBy` picks an index with a least key, and no earlier key is as small |
| Cursors.ArgMinOfRoots | src/components/Grid/drawing.js:299 | choosing by distance and choosing by squared distance pick the same entry |
| Cursors.NearestEntry | src/components/Grid/drawing.js:299 | the chosen table vector is at least as near to the point as every other entry, and strictly nearer than every earlier one |
| Cursors.BestResizeCursor | src/components/Grid/drawing.js:288-300 | the cursor is that of a table entry at least as near to the normalised, rotated offset as every entry and strictly nearer than every earlier one |
| Cursors.ArgMinOfPairSwap | src/components/Grid/drawing.js:299 | swapping the keys of every pair keeps the first least key in the same pair |
| Cursors.OppositeCornersShareCursor | src/components/Grid/drawing.js:288-300 | diagonally opposite corner handles show the same cursor at every rotation |
| Cursors.DownCursor | src/components/Grid/drawing.js:278-299 | the table entry nearest to `(0, 1)` is its third, `(0, 1)` itself, with cursor `ns-resize` |
| Cursors.RotatedUnitOffsetNegate | src/components/Grid/drawing.js:290-297 | normalising and turning the mirrored offset gives the mirrored point |
| Cursors.QuarterTurnOffset | src/components/Grid/drawing.js:290-297 | a quarter turn takes the offset `(1, 0)` to `(0, 1)` |
| Cursors.QuarterTurnCursor | src/components/Grid/drawing.js:288-300 | the offset `(1, 0)` turned by a quarter turn selects `ns-resize` |
| JsValues.DecimalString | src/store/modules/models/actions.js:8 | a whole number's text is a non-empty string of digits with no leading zero |
| JsValues.DecimalRoundTrip | src/store/modules/models/actions.js:8 | the text reads back as the number |
| Gesture.PxPerRWUOfAffine | src/components/Grid/drawing.js:308 | for a scale `x => k*x + b` the pixels per world unit are `k` |
| Gesture.OffsetTurnsBack | src/components/Grid/drawing.js:312-321 | turning the live offset forward by the image's rotation gives back the pointer displacement |
| Gesture.MoveUpdate | src/components/Grid/drawing.js:333-340 | the move update carries the image and exactly the fields `x` and `y` |
| Gesture.MoveIgnoresRotation | src/components/Grid/drawing.js:333-340 | the committed position does not depend on the rotation (the offset computed at the drag end is unused) |
| Gesture.MoveFollowsPointer | src/components/Grid/drawing.js:333-340 | `x + dx/px` and `y - dy/px` put the centre, on screen, exactly where the pointer moved it (square pixels, y flipped) |
| Gesture.ScalingFactor | src/components/Grid/drawing.js:343-352 | the factor times the start distance is the current distance; it is non-negative for a non-negative distance |
| Gesture.ScalingFactorOne | src/components/Grid/drawing.js:343-352 | a pointer as far from the centre as at the start gives factor 1 |
| Gesture.ResizeUpdate | src/components/Grid/drawing.js:363-370 | the resize update carries the image and exactly `width` and `height`; a NaN factor sends NaN for both |
| Gesture.ResizeFollowsPointer | src/components/Grid/drawing.js:343-370 | with a positive start distance, the new width and height times the start distance are the old ones times the current distance |
| Gesture.ResizeKeepsAspect | src/components/Grid/drawing.js:363-370 | width and height are scaled by the same factor, so their ratio is kept |
| Gesture.ResizeByOne | src/components/Grid/drawing.js:363-370 | factor 1 sends the current size |
| Gesture.ResizeExample | src/components/Grid/drawing.js:343-370 | dragging from 10 px to 20 px away turns 2 × 3 into 4 × 6 |
| Gesture.RotationAngle | src/components/Grid/drawing.js:373-381 | the angle is the bearing change or that plus 180, and it is the bearing change exactly when the pointer stays on one side of the centre's vertical |
| Gesture.RotationSameSide | src/components/Grid/drawing.js:373-381 | without crossing the centre's vertical, the angle is the bearing change |
| Gesture.RotationCrossing | src/components/Grid/drawing.js:373-381 | crossing it adds exactly 180 degrees |
| Gesture.RotationReverse | src/components/Grid/drawing.js:373-381 | dragging back the same way undoes the turn, up to a whole turn |
| Gesture.RotationCompose | src/components/Grid/drawing.js:373-381 | two drags in a row turn as far as one drag, up to a whole turn |
| Gesture.RotateUpdate | src/components/Grid/drawing.js:392-397 | the rotate update carries the image and exactly `r`; a NaN angle sends NaN |
| Gesture.RotateAddsAngle | src/components/Grid/drawing.js:373-397 | the new `r` is the old one plus the bearing change, plus 180 exactly when the pointer crossed the centre's vertical |
| Gesture.RotateExample | src/components/Grid/drawing.js:373-397 | a same-side drag from bearing 0 to bearing 90 adds 90 to `r` |
| Gesture.ImageGestures.constructor | src/components/Grid/drawing.js:308-310 | fresh pointer variables, all undefined, and the scale ratio of the chart's x scale |
| Gesture.ImageGestures.StartAsWritten | src/components/Grid/drawing.js:323-326 | a drag start records only the start pointer; the current pointer keeps its old value |
| Gesture.ImageGestures.Start | src/components/Grid/drawing.js:354-357 | corrected drag start: records the start pointer and also takes it as the current pointer |
| Gesture.ImageGestures.Track | src/components/Grid/drawing.js:327-328 | a drag step records the current pointer and leaves the start alone |
| Gesture.ImageGestures.DragMove | src/components/Grid/drawing.js:327-332 | records the pointer; the live translation is the displacement turned back by the rotation |
| Gesture.ImageGestures.EndMove | src/components/Grid/drawing.js:333-340 | sends the move update from the recorded pointers and leaves them unchanged |
| Gesture.ImageGestures.DragResize | src/components/Grid/drawing.js:358-362 | records the pointer; the live scale is the ratio of the distances from the centre |
| Gesture.ImageGestures.EndResize | src/components/Grid/drawing.js:363-370 | sends the resize update; the factor is NaN when no current pointer was recorded |
| Gesture.ImageGestures.DragRotate | src/components/Grid/drawing.js:387-391 | records the pointer; the live turn is the rotation angle |
| Gesture.ImageGestures.EndRotate | src/components/Grid/drawing.js:392-397 | sends the rotate update; the angle is NaN when no current pointer was recorded |
| Gesture.ImageChart.constructor | src/components/Grid/drawing.js:303-305 | identity scales |
| Gesture.ImageChart.XScale | src/components/Grid/drawing.js:454-458 | reports or replaces the x scale only |
| Gesture.ImageChart.YScale | src/components/Grid/drawing.js:459-463 | reports or replaces the y scale only |
| Gesture.ImageChart.Render | src/components/Grid/drawing.js:307-310 | each render pass gets new pointer variables, all undefined, over the current scales |
| Gesture.ClickAsWritten | src/components/Grid/drawing.js:323-340 | a click with no movement commits `x` and `y` as NaN |
| Gesture.Click | src/components/Grid/drawing.js:323-340 | with the corrected drag start the same click commits the image's own position |
| ModelActions.ReadPath | src/store/modules/models/actions.js:25 | `payload.story.id` is readable exactly when the payload is an object with a non-nullish `story`, and then it is the read of `id` on that story |
| ModelActions.FindById | src/store/modules/models/actions.js:25 | `find` by id: a found index matches and every earlier entry does not; not found iff every entry was checked and none matched; a throw comes from a nullish entry or an unreadable id, after non-matching entries |
| ModelActions.FindReachesMatch | src/store/modules/models/actions.js:98 | with no nullish entry before it, a matching entry is found, or an earlier match is |
| ModelActions.DefaultName | src/store/modules/models/actions.js:8 | a default name begins with its prefix |
| ModelActions.DefaultNameReadsBack | src/store/modules/models/actions.js:27 | the digits after the prefix read back as the count plus one |
| ModelActions.DefaultNamesDistinct | src/store/modules/models/actions.js:37 | different counts give different names |
| ModelActions.Length | src/store/modules/models/actions.js:27 | an array's length is its number of items; an object has a length exactly when its own `length` is a whole number, and then it is that number |
| ModelActions.InitStory | src/store/modules/models/actions.js:6-22 | commits the story named `Story <count + 1>`, then dispatches `application/setCurrentStory` and `geometry/initGeometry`, all with the same payload |
| ModelActions.InitChild | src/store/modules/models/actions.js:24-42 | at most one commit; the action throws exactly when it commits nothing |
| ModelActions.InitChildNames | src/store/modules/models/actions.js:24-32 | once the story is found with `n` children, commits it with a child named `<prefix><n + 1>` |
| ModelActions.InitChildMissingCollection | src/store/modules/models/actions.js:24-42 | a found story whose `spaces` or `shading` is `undefined` or `null` makes the action throw without a commit |
| ModelActions.InitChildUnknownStory | src/store/modules/models/actions.js:34-42 | an unknown story id makes the action throw without a commit |
| ModelActions.DestroyStory | src/store/modules/models/actions.js:44-49 | throws only if the lookup throws; otherwise commits `destroyStory` once, with the first story whose id matches, or `undefined` when none does |
| ModelActions.FaceCascade | src/store/modules/models/actions.js:59-66 | dispatches at most one face destruction and nothing else |
| ModelActions.FaceCascadeIffFace | src/store/modules/models/actions.js:59-66 | over object faces it dispatches iff some face has the space's `face_id`, handing over the first such face |
| ModelActions.DestroySpace | src/store/modules/models/actions.js:51-67 | any effects start with the `destroySpace` commit, and there are at most two |
| ModelActions.DestroySpaceCommitsThenCascades | src/store/modules/models/actions.js:55-66 | once story and space are found, the removal is committed and then the cascade runs; a throw in the cascade leaves the commit standing |
| ModelActions.Sanitised | src/store/modules/models/actions.js:103-107 | the cleaned payload only has keys the payload has |
| ModelActions.SanitisedKeys | src/store/modules/models/actions.js:120-124 | a key survives iff the payload owns it and the stored object has it, with its value unchanged |
| ModelActions.SanitisedIdempotent | src/store/modules/models/actions.js:137-141 | sanitising again against the same object changes nothing |
| ModelActions.Sanitise | src/store/modules/models/actions.js:153-157 | the key-by-key loop builds exactly the sanitised payload |
| ModelActions.Scope | src/store/modules/models/actions.js:98-149 | story updates search the store's stories; space, shading and image updates search the current story's collection, and throw unless the current story is an object whose collection is an array |
| ModelActions.UpdateOutcome | src/store/modules/models/actions.js:97-112 | the action throws exactly when the searched collection is unreadable or no entry with the payload's id is found; otherwise it commits exactly once, with the kind's mutation |
| ModelActions.UpdateWithData | src/store/modules/models/actions.js:114-129 | the action as written, loop included, has exactly that outcome |
| ModelActions.UpdatePinsAndFilters | src/store/modules/models/actions.js:131-146 | the entity key holds the first stored object with the id, never the payload's copy; another key is sent iff the payload and the stored object both have it, with the payload's value |
| ModelActions.UpdateUnknownTarget | src/store/modules/models/actions.js:147-162 | an id found nowhere in scope throws without a commit |
| ModelActions.UpdateObjectWithData | src/store/modules/models/actions.js:164-169 | replaces only the payload's `object` with the stored library object and commits the whole payload unfiltered; an unreadable id changes nothing |
| ModelActions.Third | src/store/modules/models/actions.js:174 | three times the result is the argument, NaN staying NaN |
| ModelActions.CreateImageForStory | src/store/modules/models/actions.js:171-180 | throws exactly for a nullish payload; otherwise commits once |
| ModelActions.ImageHeightIsThirdOfView | src/store/modules/models/actions.js:174 | three new images' heights add up to the view's height |

## Left out

- Rendering is not modelled: D3 selections, enter/exit/merge, SVG attributes and `transform` strings, the arrowhead path, `d3.mouse`, `stopPropagation`, `document.querySelector`, and the image's SVG size attributes (drawing.js:400-450). The handle offsets fed to the cursor are covered by `Cursors`.
- Floating point is not modelled. `Math.sqrt`, `Math.cos`, `Math.sin`, `Math.PI` and `edgeDirection` results are parameters. `1/Math.sqrt(2)` is the literal 0.7071067811865475. Infinities are not modelled.
- `unitVector`, `unitPerpVector`, `distanceBetweenPoints` and `edgeDirection` (src/store/modules/geometry/helpers.js) are not part of this model. Only the facts stated by `IsUnit` (for the edge direction of a guideline), `IsUnitPerpVector` and `IsDistance` are assumed of their results, and only by the members whose `requires` name them.
- Measure.DistanceMeasure.Render: the label text is the string form of the rounded number. The model keeps the number and does not model JavaScript's number-to-string formatting.
- Accessor setters return the chart, for chaining. The model's setters return the new value instead.
- `updateImage`'s dispatch through the global store (drawing.js:306) is not modelled. The drag-end methods return the update record it would receive.
- Vuex `commit` and `dispatch` are recorded effects, not executed. `factory`, `Validator` and `helpers.libraryObjectWithId` are not part of this model. New factory objects and the library lookup are parameters.
- The chart's scales are fixed for a render pass. In the source the drag handlers read `drawImage`'s own `xScale` and `yScale` variables (drawing.js:304-305, read at 345, 375 and 379), which `chart.xScale(_)` and `chart.yScale(_)` reassign for passes already rendered; the model's `ImageGestures` copies them at render time, so a scale change between a drag start and its drag end does not move the centre the resize and rotate handlers measure from. Only `pxPerRWU` (drawing.js:308) is fixed per pass in the source too.
- ModelActions.Length: an object's own `length` property is read only when it holds a whole, non-negative number. Any other `length` (a fraction, a negative number, a string) is modelled as missing, so the new child is named with `NaN` where the source would name it with that value plus one or with the string joined to `1`.
- The `{ root: true }` option of the dispatches in `initStory` and `destroySpace` (actions.js:16, 21, 65) is not recorded. Every `Dispatch` effect stands for a root dispatch, and its action name carries the target module's namespace.
- `destroyShading` is left out. It reads an undeclared `shading` and so throws a ReferenceError before committing anything.
- `destroyImage` is left out. It is only a `debugger` statement.
- `destroyObject` and `createObjectWithType` are left out. Each is a single commit of fields copied from the payload, with nothing to state beyond the call itself.
- Object identity is not modelled. `===` compares values structurally. The ids compared are strings in practice, where the two agree.
- `for...in` visiting order is not modelled. Keys are distinct, so the order does not change the cleaned payload.
- Cursors.BestResizeCursor: requires a non-zero norm. The handles always pass offsets of ±1, so the norm is √2.
- Gesture.ImageGestures.EndMove: requires `pxPerRWU != 0`. A degenerate x scale would divide by zero and produce Infinity or NaN, which are not modelled.
- Gesture.ImageGestures.DragResize: requires the start distance to be positive. The source does not guard a drag that starts exactly on the centre.
- Gesture.ImageGestures.EndResize: requires the start distance to be positive, for the same reason.

## Findings

| source | as written | input that shows it | evidently intended | confidence | as-written member | corrected member |
|---|---|---|---|---|---|---|
| src/components/Grid/drawing.js:323-326 | the drag start records only `startX`/`startY`, so a drag end with no drag step computes from `currX`/`currY` that are undefined (or left over from an earlier drag in the same render pass) | press and release on an image without moving: d3 fires start and end only, and the move commit sends `x: NaN, y: NaN` | a click without movement leaves the image where it is | medium; not executed | Gesture.ClickAsWritten | Gesture.Click |

=== FILE: actions.dfy ===
/**
 * The models store's actions (src/store/modules/models/actions.js): default
 * names for new stories, spaces and shading, the face cascade when a space is
 * destroyed, the payload sanitiser of the `update*WithData` actions, the
 * library-object update and the new-image height rule.
 *
 * An action reads the store through its context and talks to the rest of the
 * application only through `commit` and `dispatch`; the model returns those
 * calls, in order, as a list of effects, together with whether the action
 * stopped on a TypeError (a property read on `undefined`, a call of something
 * that is not a function). Effects issued before the error remain issued.
 */
module ModelActions {
  import opened Options
  import opened JsValues

  /** A `commit(mutation, payload)` or a root `dispatch(action, payload)`. */
  datatype Effect =
    | Commit(mutation: string, payload: Value)
    | Dispatch(action: string, payload: Value)

  /** The effects an action issued and whether it then threw. */
  datatype Outcome = Outcome(effects: seq<Effect>, threw: bool)

  /** What the actions read from the store. */
  datatype Context = Context(
    stories: seq<Value>,           // context.state.stories
    currentStory: Value,           // context.rootState.application.currentSelections.story
    currentStoryGeometry: Value,   // context.rootGetters['application/currentStoryGeometry']
    viewMinY: Number,              // context.rootState.project.view.min_y
    viewMaxY: Number)              // context.rootState.project.view.max_y

  /** `v.k1.k2`; `None` when either read throws. */
  function ReadPath(v: Value, k1: string, k2: string): (r: Option<Value>)
    ensures r.Some? <==> v.Obj? && k1 in v.props && !Nullish(v.props[k1])
    ensures r.Some? ==> r == Read(v.props[k1], k2)
  {
    match Read(v, k1)
    case None => None
    case Some(w) => Read(w, k2)
  }

  /** Calling `.find` on `v` works only when `v` is an array. */
  function AsArray(v: Value): Option<seq<Value>>
  {
    if v.Arr? then Some(v.items) else None
  }

  /** The callback `s => s.id === id` answers true for `v`. */
  predicate Matches(v: Value, id: Value)
  {
    !Nullish(v) && StrictEquals(Read(v, "id").value, id)
  }

  /** The callback answers false for `v` without throwing. */
  predicate Passes(v: Value, id: Value)
  {
    !Nullish(v) && !StrictEquals(Read(v, "id").value, id)
  }

  /** The outcome of a `.find` by id. */
  datatype Lookup = Found(index: nat) | NotFound | Threw

  /**
   * `items.find(s => s.id === <id>)`. The callback reads `s.id` first and
   * then evaluates the id expression, which is `None` when that expression
   * throws; either throw ends the search. The first match wins.
   */
  function FindById(items: seq<Value>, id: Option<Value>): (r: Lookup)
    ensures r.Found? ==> r.index < |items| && id.Some? && Matches(items[r.index], id.value)
    ensures r.Found? ==> forall j :: 0 <= j < r.index ==> Passes(items[j], id.value)
    ensures r.NotFound? <==> forall j :: 0 <= j < |items| ==> id.Some? && Passes(items[j], id.value)
    ensures r.Threw? ==> exists k :: 0 <= k < |items| && (id.None? || Nullish(items[k])) &&
                           forall j :: 0 <= j < k ==> id.Some? && Passes(items[j], id.value)
  {
    if items == [] then NotFound
    else if Nullish(items[0]) || id.None? then Threw
    else if Matches(items[0], id.value) then Found(0)
    else
      var r := FindById(items[1..], id);
      assert forall j :: 1 <= j < |items| ==> items[j] == items[1..][j - 1];
      match r
      case Found(i) => Found(i + 1)
      case NotFound => NotFound
      case Threw =>
        var k :| 0 <= k < |items[1..]| && (id.None? || Nullish(items[1..][k])) &&
                 forall j :: 0 <= j < k ==> id.Some? && Passes(items[1..][j], id.value);
        assert 0 <= k + 1 < |items| && Nullish(items[k + 1]);
        Threw
  }

  /** When no entry is `null` or `undefined`, the search finds the first entry carrying the id, if there is one. */
  lemma FindReachesMatch(items: seq<Value>, id: Value, j: nat)
    requires j < |items| && Matches(items[j], id)
    requires forall i :: 0 <= i < j ==> !Nullish(items[i])
    ensures FindById(items, Some(id)).Found? && FindById(items, Some(id)).index <= j
  {
  }

  /** `find`'s value: the entry found, `undefined` otherwise. */
  function FoundValue(items: seq<Value>, r: Lookup): Value
    requires r.Found? ==> r.index < |items|
  {
    if r.Found? then items[r.index] else Undefined
  }

  /**
   * `v.length` where it is a whole number: the length of an array or a
   * string, or an object's own `length` property holding a whole number;
   * `None` for every other value, whose `length + 1` the model reads as `NaN`.
   */
  function Length(v: Value): (r: Option<nat>)
    ensures v.Arr? ==> r == Some(|v.items|)
    ensures v.Obj? ==> (r.Some? <==> "length" in v.props && WholeNumber(v.props["length"]))
    ensures v.Obj? && r.Some? ==> r.value as real == v.props["length"].n.v
  {
    match v
    case Arr(items) => Some(|items|)
    case Str(s) => Some(|s|)
    case Obj(props) =>
      if "length" in props && WholeNumber(props["length"]) then Some(props["length"].n.v.Floor) else None
    case _ => None
  }

  /** A number with no fractional part that is not negative. */
  predicate WholeNumber(v: Value)
  {
    v.Num? && v.n.Finite? && v.n.v >= 0.0 && v.n.v.Floor as real == v.n.v
  }

  /** `prefix + (length + 1)`, where an `undefined` length gives `NaN`. */
  function DefaultName(prefix: string, length: Option<nat>): (s: string)
    ensures |s| > |prefix| && s[..|prefix|] == prefix
  {
    prefix + (if length.Some? then DecimalString(length.value + 1) else "NaN")
  }

  /** The number after the prefix reads back as the count plus one. */
  lemma DefaultNameReadsBack(prefix: string, n: nat)
    ensures AllDigits(DefaultName(prefix, Some(n))[|prefix|..])
    ensures ParseDecimal(DefaultName(prefix, Some(n))[|prefix|..]) == n + 1
  {
    assert DefaultName(prefix, Some(n))[|prefix|..] == DecimalString(n + 1);
    DecimalRoundTrip(n + 1);
  }

  /** Counts that differ give names that differ. */
  lemma DefaultNamesDistinct(prefix: string, m: nat, n: nat)
    requires m != n
    ensures DefaultName(prefix, Some(m)) != DefaultName(prefix, Some(n))
  {
    if DefaultName(prefix, Some(m)) == DefaultName(prefix, Some(n)) {
      DefaultNameReadsBack(prefix, m);
      DefaultNameReadsBack(prefix, n);
    }
  }

  /** `obj.name = name` on a blank object with properties `blank`. */
  function Named(blank: map<string, Value>, name: string): Value
  {
    Obj(blank["name" := Str(name)])
  }

  /**
   * `initStory`: names the new story after the story count, commits it, makes
   * it the current story and creates its geometry. `blank` is the object
   * `new factory.Story()` builds.
   */
  function InitStory(ctx: Context, blank: map<string, Value>): (out: Outcome)
    ensures !out.threw && |out.effects| == 3
    ensures out.effects[0] == Commit("initStory", Obj(map["story" := Named(blank, DefaultName("Story ", Some(|ctx.stories|)))]))
    ensures out.effects[1].Dispatch? && out.effects[1].action == "application/setCurrentStory"
    ensures out.effects[2].Dispatch? && out.effects[2].action == "geometry/initGeometry"
    ensures out.effects[1].payload == out.effects[2].payload == out.effects[0].payload
  {
    var story := Named(blank, DefaultName("Story ", Some(|ctx.stories|)));
    var p := Obj(map["story" := story]);
    Outcome([Commit("initStory", p), Dispatch("application/setCurrentStory", p), Dispatch("geometry/initGeometry", p)], false)
  }

  /** The two kinds of child a story holds by name count. */
  datatype ChildKind = SpaceChild | ShadingChild
  {
    function Collection(): string
    {
      match this
      case SpaceChild => "spaces"
      case ShadingChild => "shading"
    }

    function Prefix(): string
    {
      match this
      case SpaceChild => "Space "
      case ShadingChild => "Shading "
    }

    function Key(): string
    {
      match this
      case SpaceChild => "space"
      case ShadingChild => "shading"
    }

    function Mutation(): string
    {
      match this
      case SpaceChild => "initSpace"
      case ShadingChild => "initShading"
    }
  }

  /**
   * `initSpace` and `initShading`: find the story by the payload's story id,
   * name the new child after the story's child count and commit both.
   */
  function InitChild(ctx: Context, payload: Value, blank: map<string, Value>, kind: ChildKind): (out: Outcome)
    ensures |out.effects| <= 1 && (out.threw <==> out.effects == [])
  {
    var r := FindById(ctx.stories, ReadPath(payload, "story", "id"));
    if r.Threw? then Outcome([], true)
    else
      var story := FoundValue(ctx.stories, r);
      match Read(story, kind.Collection())
      case None => Outcome([], true)
      case Some(children) =>
        if Nullish(children) then Outcome([], true)
        else
          var child := Named(blank, DefaultName(kind.Prefix(), Length(children)));
          Outcome([Commit(kind.Mutation(), Obj(map["story" := story, kind.Key() := child]))], false)
  }

  /**
   * Once the story is found and its collection is an array of `n` children,
   * the new child is named with `n + 1`, and the story committed is the first
   * one with the payload's id.
   */
  lemma InitChildNames(ctx: Context, payload: Value, blank: map<string, Value>, kind: ChildKind, id: Value, n: nat)
    requires ReadPath(payload, "story", "id") == Some(id)
    requires FindById(ctx.stories, Some(id)).Found?
    requires Length(Read(ctx.stories[FindById(ctx.stories, Some(id)).index], kind.Collection()).value) == Some(n)
    ensures InitChild(ctx, payload, blank, kind) == Outcome([Commit(kind.Mutation(), Obj(map[
              "story" := ctx.stories[FindById(ctx.stories, Some(id)).index],
              kind.Key() := Named(blank, kind.Prefix() + DecimalString(n + 1))]))], false)
  {
  }

  /**
   * A found story whose collection is `undefined` or `null` makes the action
   * throw at `.length` without committing.
   */
  lemma InitChildMissingCollection(ctx: Context, payload: Value, blank: map<string, Value>, kind: ChildKind, id: Value)
    requires ReadPath(payload, "story", "id") == Some(id)
    requires FindById(ctx.stories, Some(id)).Found?
    requires Read(ctx.stories[FindById(ctx.stories, Some(id)).index], kind.Collection()).Some?
    requires Nullish(Read(ctx.stories[FindById(ctx.stories, Some(id)).index], kind.Collection()).value)
    ensures InitChild(ctx, payload, blank, kind) == Outcome([], true)
  {
  }

  /** A payload whose story id matches no story makes the action throw without committing. */
  lemma InitChildUnknownStory(ctx: Context, payload: Value, blank: map<string, Value>, kind: ChildKind)
    requires FindById(ctx.stories, ReadPath(payload, "story", "id")).NotFound?
    ensures InitChild(ctx, payload, blank, kind) == Outcome([], true)
  {
  }

  /** `destroyStory`: commits the first story with the payload's id (`undefined` when none has it). */
  function DestroyStory(ctx: Context, payload: Value): (out: Outcome)
    ensures out.threw <==> FindById(ctx.stories, ReadPath(payload, "story", "id")).Threw?
    ensures !out.threw ==> |out.effects| == 1 && out.effects[0].Commit? && out.effects[0].mutation == "destroyStory"
    ensures !out.threw ==>
              out.effects[0].payload
              == Obj(map["story" := FoundValue(ctx.stories, FindById(ctx.stories, ReadPath(payload, "story", "id")))])
  {
    var r := FindById(ctx.stories, ReadPath(payload, "story", "id"));
    if r.Threw? then Outcome([], true)
    else Outcome([Commit("destroyStory", Obj(map["story" := FoundValue(ctx.stories, r)]))], false)
  }

  /**
   * The tail of `destroySpace`: look up the face whose id is the removed
   * space's `face_id` in the current story geometry and, if there is one,
   * dispatch its destruction. `faceId` is `None` when reading `space.face_id`
   * throws.
   */
  function FaceCascade(geometry: Value, faceId: Option<Value>): (out: Outcome)
    ensures |out.effects| <= 1
    ensures forall e :: e in out.effects ==> e.Dispatch? && e.action == "geometry/destroyFaceAndDescendents"
  {
    match Read(geometry, "faces")
    case None => Outcome([], true)
    case Some(fv) =>
      match AsArray(fv)
      case None => Outcome([], true)
      case Some(faces) =>
        var r := FindById(faces, faceId);
        if r.Threw? then Outcome([], true)
        else
          var face := FoundValue(faces, r);
          if Truthy(face)
          then Outcome([Dispatch("geometry/destroyFaceAndDescendents", Obj(map["face" := face, "geometry" := geometry]))], false)
          else Outcome([], false)
  }

  /**
   * When every face is an object, the cascade dispatches exactly when some
   * face carries the space's face id, and the face it hands over is the first
   * such face.
   */
  lemma {:induction false} FaceCascadeIffFace(geometry: Value, faces: seq<Value>, faceId: Value)
    requires Read(geometry, "faces") == Some(Arr(faces))
    requires forall j :: 0 <= j < |faces| ==> faces[j].Obj?
    ensures !FaceCascade(geometry, Some(faceId)).threw
    ensures |FaceCascade(geometry, Some(faceId)).effects| == 1 <==>
              exists j :: 0 <= j < |faces| && Matches(faces[j], faceId)
    ensures |FaceCascade(geometry, Some(faceId)).effects| == 1 ==>
              FaceCascade(geometry, Some(faceId)).effects[0].payload.props["face"]
                == faces[FindById(faces, Some(faceId)).index]
  {
    var r := FindById(faces, Some(faceId));
    assert !r.Threw?;
    if exists j :: 0 <= j < |faces| && Matches(faces[j], faceId) {
      var j :| 0 <= j < |faces| && Matches(faces[j], faceId);
      FindReachesMatch(faces, faceId, j);
    }
  }

  /**
   * `destroySpace`: find the story, then the space in it, commit the removal
   * and run the face cascade. The commit is issued before the cascade, so it
   * stands even when the cascade throws.
   */
  function DestroySpace(ctx: Context, payload: Value): (out: Outcome)
    ensures |out.effects| <= 2
    ensures out.effects != [] ==> out.effects[0].Commit? && out.effects[0].mutation == "destroySpace"
  {
    var r := FindById(ctx.stories, ReadPath(payload, "story", "id"));
    if r.Threw? then Outcome([], true)
    else
      var story := FoundValue(ctx.stories, r);
      match Read(story, "spaces")
      case None => Outcome([], true)
      case Some(sv) =>
        match AsArray(sv)
        case None => Outcome([], true)
        case Some(spaces) =>
          var r2 := FindById(spaces, ReadPath(payload, "space", "id"));
          if r2.Threw? then Outcome([], true)
          else
            var space := FoundValue(spaces, r2);
            var commit := Commit("destroySpace", Obj(map["space" := space, "story" := story]));
            var cascade := FaceCascade(ctx.currentStoryGeometry, Read(space, "face_id"));
            Outcome([commit] + cascade.effects, cascade.threw)
  }

  /**
   * Once the story and its space are found, the removal is always committed,
   * followed by exactly what the face cascade for that space issues.
   */
  lemma DestroySpaceCommitsThenCascades(ctx: Context, payload: Value, story: Value, spaces: seq<Value>, space: Value)
    requires FindById(ctx.stories, ReadPath(payload, "story", "id")).Found?
    requires story == ctx.stories[FindById(ctx.stories, ReadPath(payload, "story", "id")).index]
    requires Read(story, "spaces") == Some(Arr(spaces))
    requires FindById(spaces, ReadPath(payload, "space", "id")).Found?
    requires space == spaces[FindById(spaces, ReadPath(payload, "space", "id")).index]
    ensures DestroySpace(ctx, payload).effects
              == [Commit("destroySpace", Obj(map["space" := space, "story" := story]))]
                 + FaceCascade(ctx.currentStoryGeometry, Read(space, "face_id")).effects
    ensures DestroySpace(ctx, payload).threw == FaceCascade(ctx.currentStoryGeometry, Read(space, "face_id")).threw
  {
  }

  /** The keys of `payload` that the stored object also has, with the payload's values. */
  function Sanitised(payload: map<string, Value>, valid: set<string>): (r: map<string, Value>)
    ensures r.Keys <= payload.Keys
  {
    map k | k in payload.Keys && k in valid :: payload[k]
  }

  /** A key survives exactly when the payload owns it and the stored object has it; its value is copied unchanged. */
  lemma SanitisedKeys(payload: map<string, Value>, valid: set<string>, k: string)
    ensures k in Sanitised(payload, valid) <==> k in payload && k in valid
    ensures k in Sanitised(payload, valid) ==> Sanitised(payload, valid)[k] == payload[k]
  {
  }

  /** Sanitising twice against the same object changes nothing more. */
  lemma SanitisedIdempotent(payload: map<string, Value>, valid: set<string>)
    ensures Sanitised(Sanitised(payload, valid), valid) == Sanitised(payload, valid)
  {
  }

  /** The `for...in` loop of `update*WithData`, one owned key at a time. */
  method Sanitise(payload: map<string, Value>, valid: set<string>) returns (cleaned: map<string, Value>)
    ensures cleaned == Sanitised(payload, valid)
  {
    cleaned := map[];
    var remaining := payload.Keys;
    while remaining != {}
      invariant remaining <= payload.Keys
      invariant cleaned == map k | k in payload.Keys - remaining && k in valid :: payload[k]
      decreases |remaining|
    {
      var key :| key in remaining;
      if key in valid {
        cleaned := cleaned[key := payload[key]];
      }
      remaining := remaining - {key};
    }
  }

  /** The four sanitising update actions. */
  datatype Kind = StoryKind | SpaceKind | ShadingKind | ImageKind
  {
    /** The payload key that names the target, and that the commit pins. */
    function Key(): string
    {
      match this
      case StoryKind => "story"
      case SpaceKind => "space"
      case ShadingKind => "shading"
      case ImageKind => "image"
    }

    /** The current story's collection searched; stories are searched in the store's own list. */
    function Collection(): string
    {
      match this
      case StoryKind => "stories"
      case SpaceKind => "spaces"
      case ShadingKind => "shading"
      case ImageKind => "images"
    }

    function Mutation(): string
    {
      match this
      case StoryKind => "updateStoryWithData"
      case SpaceKind => "updateSpaceWithData"
      case ShadingKind => "updateShadingWithData"
      case ImageKind => "updateImageWithData"
    }
  }

  /** The list an update searches: all stories, or a collection of the current story; `None` when that throws. */
  function Scope(ctx: Context, kind: Kind): (r: Option<seq<Value>>)
    ensures kind.StoryKind? ==> r == Some(ctx.stories)
    ensures !kind.StoryKind? ==>
              (r.Some? <==> ctx.currentStory.Obj? && kind.Collection() in ctx.currentStory.props
                            && ctx.currentStory.props[kind.Collection()].Arr?)
    ensures !kind.StoryKind? && r.Some? ==> r.value == ctx.currentStory.props[kind.Collection()].items
  {
    if kind.StoryKind? then Some(ctx.stories)
    else
      match Read(ctx.currentStory, kind.Collection())
      case None => None
      case Some(v) => AsArray(v)
  }

  /** The properties `for...in` visits on the payload. */
  function OwnProps(payload: Value): map<string, Value>
  {
    if payload.Obj? then payload.props else map[]
  }

  /**
   * What `update*WithData` does: find the target by the payload's id in its
   * scope, keep the payload's keys that the target has (`Object.keys`
   * throws for an `undefined` target), pin the target under its key and
   * commit once.
   */
  function UpdateOutcome(ctx: Context, kind: Kind, payload: Value): (out: Outcome)
    ensures out.threw <==> out.effects == []
    ensures !out.threw ==> |out.effects| == 1 && out.effects[0].Commit? && out.effects[0].mutation == kind.Mutation()
    ensures out.threw <==>
              Scope(ctx, kind).None? || !FindById(Scope(ctx, kind).value, ReadPath(payload, kind.Key(), "id")).Found?
  {
    match Scope(ctx, kind)
    case None => Outcome([], true)
    case Some(items) =>
      var r := FindById(items, ReadPath(payload, kind.Key(), "id"));
      if r.Threw? then Outcome([], true)
      else
        var target := FoundValue(items, r);
        match OwnKeys(target)
        case None => Outcome([], true)
        case Some(valid) =>
          var cleaned := Sanitised(OwnProps(payload), valid)[kind.Key() := target];
          Outcome([Commit(kind.Mutation(), Obj(cleaned))], false)
  }

  /** The action itself, building the cleaned payload key by key. */
  method UpdateWithData(ctx: Context, kind: Kind, payload: Value) returns (out: Outcome)
    ensures out == UpdateOutcome(ctx, kind, payload)
  {
    var scope := Scope(ctx, kind);
    if scope.None? {
      return Outcome([], true);
    }
    var items := scope.value;
    var r := FindById(items, ReadPath(payload, kind.Key(), "id"));
    if r.Threw? {
      return Outcome([], true);
    }
    var target := FoundValue(items, r);
    var valid := OwnKeys(target);
    if valid.None? {
      return Outcome([], true);
    }
    var cleaned := Sanitise(OwnProps(payload), valid.value);
    cleaned := cleaned[kind.Key() := target];
    out := Outcome([Commit(kind.Mutation(), Obj(cleaned))], false);
  }

  /**
   * A successful update commits the first stored object with the payload's
   * id under the entity key, never the payload's own copy; every other key is
   * in the commit exactly when the payload has it and the stored object has
   * it, with the payload's value.
   */
  lemma {:induction false} UpdatePinsAndFilters(ctx: Context, kind: Kind, payload: Value)
    requires !UpdateOutcome(ctx, kind, payload).threw
    ensures Scope(ctx, kind).Some?
    ensures var items := Scope(ctx, kind).value;
            var r := FindById(items, ReadPath(payload, kind.Key(), "id"));
            r.Found? &&
            var target := items[r.index];
            var sent := UpdateOutcome(ctx, kind, payload).effects[0].payload;
            payload.Obj? && sent.Obj? && OwnKeys(target).Some? &&
            kind.Key() in sent.props && sent.props[kind.Key()] == target &&
            (forall k :: k != kind.Key() ==>
               (k in sent.props <==> k in payload.props && k in OwnKeys(target).value)) &&
            (forall k :: k != kind.Key() && k in sent.props ==> sent.props[k] == payload.props[k])
  {
    var items := Scope(ctx, kind).value;
    var r := FindById(items, ReadPath(payload, kind.Key(), "id"));
    assert !r.NotFound? by {
      assert OwnKeys(Undefined).None?;
    }
  }

  /** An update whose id matches nothing in its scope throws and commits nothing. */
  lemma UpdateUnknownTarget(ctx: Context, kind: Kind, payload: Value)
    requires Scope(ctx, kind).Some?
    requires FindById(Scope(ctx, kind).value, ReadPath(payload, kind.Key(), "id")).NotFound?
    ensures UpdateOutcome(ctx, kind, payload) == Outcome([], true)
  {
  }

  /** The payload object `updateObjectWithData` receives and mutates. */
  class Payload {
    var props: map<string, Value>

    constructor (props: map<string, Value>)
      ensures this.props == props
    {
      this.props := props;
    }
  }

  /**
   * `updateObjectWithData`: swap the payload's `object` for the stored
   * library object with its id, then commit the payload as it now is,
   * without filtering its keys. `libraryObjectWithId` stands for the store
   * helper of that name.
   */
  method UpdateObjectWithData(payload: Payload, libraryObjectWithId: Value -> Value) returns (out: Outcome)
    modifies payload
    ensures var id := ReadPath(Obj(old(payload.props)), "object", "id");
            if id.None? then out == Outcome([], true) && payload.props == old(payload.props)
            else payload.props == old(payload.props)["object" := libraryObjectWithId(id.value)] &&
                 out == Outcome([Commit("updateObjectWithData", Obj(payload.props))], false)
  {
    var id := ReadPath(Obj(payload.props), "object", "id");
    if id.None? {
      return Outcome([], true);
    }
    payload.props := payload.props["object" := libraryObjectWithId(id.value)];
    out := Outcome([Commit("updateObjectWithData", Obj(payload.props))], false);
  }

  /** `n / 3` on numbers. */
  function Third(n: Number): (r: Number)
    ensures r.Finite? <==> n.Finite?
    ensures r.Finite? ==> 3.0 * r.v == n.v
  {
    if n.Finite? then Finite(n.v / 3.0) else NaN
  }

  /**
   * `createImageForStory`: a new image (`blank` is what `new
   * factory.Image(payload.src)` builds) named after the payload, one third of
   * the view's height tall, committed with the payload's story id.
   */
  function CreateImageForStory(ctx: Context, payload: Value, blank: map<string, Value>): (out: Outcome)
    ensures out.threw <==> Nullish(payload)
    ensures !out.threw ==> |out.effects| == 1 && out.effects[0].Commit? && out.effects[0].mutation == "createImageForStory"
  {
    if Nullish(payload) then Outcome([], true)
    else
      var height := Third(Minus(ctx.viewMaxY, ctx.viewMinY));
      var image := Obj(blank["name" := Read(payload, "name").value]["height" := Num(height)]);
      Outcome([Commit("createImageForStory", Obj(map["story_id" := Read(payload, "story_id").value, "image" := image]))], false)
  }

  /** Three new images stacked exactly span the view's height. */
  lemma ImageHeightIsThirdOfView(ctx: Context, payload: Value, blank: map<string, Value>, minY: real, maxY: real)
    requires !Nullish(payload)
    requires ctx.viewMinY == Finite(minY) && ctx.viewMaxY == Finite(maxY)
    ensures var image := CreateImageForStory(ctx, payload, blank).effects[0].payload.props["image"];
            image.Obj? && "height" in image.props && image.props["height"].Num? &&
            image.props["height"].n.Finite? && 3.0 * image.props["height"].n.v == maxY - minY
  {
  }
}

=== FILE: cursor.dfy ===
/**
 * The cursor shown over an image's corner handle (`RESIZE_CURSORS` and
 * `bestResizeCursor` in src/components/Grid/drawing.js): the corner's offset is
 * normalised, turned by the image's rotation, and the table entry whose vector
 * lies nearest to it gives the cursor.
 */
module Cursors {
  import opened Geometry

  /** The four CSS resize cursors the table uses. */
  datatype Cursor = EwResize | NsResize | NwseResize | NeswResize

  datatype CursorEntry = CursorEntry(vec: Point, cursor: Cursor)

  /** `1/Math.sqrt(2)` as the double it evaluates to. */
  const Diagonal: real := 0.7071067811865475

  /** The eight unit directions and their cursors, in table order. */
  const ResizeCursors: seq<CursorEntry> := [
    CursorEntry(Point(1.0, 0.0), EwResize),
    CursorEntry(Point(-1.0, 0.0), EwResize),
    CursorEntry(Point(0.0, 1.0), NsResize),
    CursorEntry(Point(0.0, -1.0), NsResize),
    CursorEntry(Point(Diagonal, Diagonal), NwseResize),
    CursorEntry(Point(-Diagonal, -Diagonal), NwseResize),
    CursorEntry(Point(Diagonal, -Diagonal), NeswResize),
    CursorEntry(Point(-Diagonal, Diagonal), NeswResize)
  ]

  function Negate(p: Point): Point
  {
    Point(-p.x, -p.y)
  }

  /** The entries come in pairs (0 and 1, 2 and 3, ...): opposite vectors with the same cursor. */
  function Opposite(i: nat): nat
  {
    if i % 2 == 0 then i + 1 else i - 1
  }

  /** Opposite directions in the table always carry the same cursor. */
  lemma OppositeEntriesShareCursor(i: nat)
    requires i < |ResizeCursors|
    ensures Opposite(i) < |ResizeCursors|
    ensures ResizeCursors[Opposite(i)].vec == Negate(ResizeCursors[i].vec)
    ensures ResizeCursors[Opposite(i)].cursor == ResizeCursors[i].cursor
  {
  }

  /**
   * The corner offset `(xOff, yOff)` divided by its length `norm` and turned
   * by the angle whose cosine and sine are `cosA` and `sinA`.
   */
  function RotatedUnitOffset(xOff: real, yOff: real, norm: real, cosA: real, sinA: real): Point
    requires norm != 0.0
  {
    Rotate(Point(xOff / norm, yOff / norm), cosA, sinA)
  }

  /** Turns `p` about the origin by the angle with cosine `cosA` and sine `sinA`. */
  function Rotate(p: Point, cosA: real, sinA: real): Point
  {
    Point(p.x * cosA - p.y * sinA, p.x * sinA + p.y * cosA)
  }

  /** Turning commutes with mirroring through the origin. */
  lemma {:induction false} RotateNegate(p: Point, cosA: real, sinA: real)
    ensures Rotate(Negate(p), cosA, sinA) == Negate(Rotate(p, cosA, sinA))
  {
  }

  /** Normalising commutes with mirroring through the origin. */
  lemma {:induction false} NormaliseNegate(xOff: real, yOff: real, norm: real)
    requires norm != 0.0
    ensures Point(-xOff / norm, -yOff / norm) == Negate(Point(xOff / norm, yOff / norm))
  {
    assert -xOff / norm == -(xOff / norm);
    assert -yOff / norm == -(yOff / norm);
  }

  /**
   * `_.minBy`: the index of the first least key. Later keys replace the
   * current best only when strictly smaller.
   */
  function ArgMin(keys: seq<real>): (i: nat)
    requires |keys| > 0
    ensures i < |keys|
    ensures forall j :: 0 <= j < |keys| ==> keys[i] <= keys[j]
    ensures forall j :: 0 <= j < i ==> keys[i] < keys[j]
  {
    if |keys| == 1 then 0
    else
      var j := 1 + ArgMin(keys[1..]);
      if keys[j] < keys[0] then j else 0
  }

  /**
   * Selecting by distance and selecting by squared distance pick the same
   * entry, so comparing squares (as the model does) is what `minBy` over
   * `distanceBetweenPoints` does.
   */
  lemma {:induction false} ArgMinOfRoots(ds: seq<real>, sqs: seq<real>)
    requires |ds| == |sqs| > 0
    requires forall j :: 0 <= j < |ds| ==> IsRoot(ds[j], sqs[j])
    ensures ArgMin(ds) == ArgMin(sqs)
  {
    if |ds| > 1 {
      assert forall j :: 0 <= j < |ds| - 1 ==> ds[1..][j] == ds[j + 1] && sqs[1..][j] == sqs[j + 1];
      ArgMinOfRoots(ds[1..], sqs[1..]);
      var j := 1 + ArgMin(ds[1..]);
      RootOrderAgrees(ds[j], sqs[j], ds[0], sqs[0]);
    }
  }

  /** Squared distances from `pt` to every table vector, in table order. */
  function Keys(pt: Point): (ks: seq<real>)
    ensures |ks| == |ResizeCursors|
    ensures forall i :: 0 <= i < |ks| ==> ks[i] == SqDist(ResizeCursors[i].vec, pt)
  {
    seq(|ResizeCursors|, i requires 0 <= i < |ResizeCursors| => SqDist(ResizeCursors[i].vec, pt))
  }

  /** The table entry nearest to `pt`; the first one on a tie. */
  function NearestEntry(pt: Point): (i: nat)
    ensures i < |ResizeCursors|
    ensures forall j :: 0 <= j < |ResizeCursors| ==>
              SqDist(ResizeCursors[i].vec, pt) <= SqDist(ResizeCursors[j].vec, pt)
    ensures forall j :: 0 <= j < i ==>
              SqDist(ResizeCursors[i].vec, pt) < SqDist(ResizeCursors[j].vec, pt)
  {
    ArgMin(Keys(pt))
  }

  /**
   * `bestResizeCursor(xOff, yOff, rotation)`, with `norm`, `cos` and `sin` of
   * the rotation given: the cursor of a table entry nearest to the normalised,
   * rotated offset, taking the first such entry on a tie.
   */
  function BestResizeCursor(xOff: real, yOff: real, norm: real, cosA: real, sinA: real): (c: Cursor)
    requires norm != 0.0
    ensures var pt := RotatedUnitOffset(xOff, yOff, norm, cosA, sinA);
            exists i :: 0 <= i < |ResizeCursors| && c == ResizeCursors[i].cursor
              && (forall j :: 0 <= j < |ResizeCursors| ==> SqDist(ResizeCursors[i].vec, pt) <= SqDist(ResizeCursors[j].vec, pt))
              && (forall j :: 0 <= j < i ==> SqDist(ResizeCursors[i].vec, pt) < SqDist(ResizeCursors[j].vec, pt))
  {
    ResizeCursors[NearestEntry(RotatedUnitOffset(xOff, yOff, norm, cosA, sinA))].cursor
  }

  /** Mirroring both points through the origin keeps their distance. */
  lemma {:induction false} SqDistNegate(a: Point, b: Point)
    ensures SqDist(a, Negate(b)) == SqDist(Negate(a), b)
  {
  }

  /** The keys of the mirrored point are the keys of the point with each pair swapped. */
  lemma {:induction false} KeysOfNegated(pt: Point)
    ensures forall j :: 0 <= j < |ResizeCursors| ==>
              Opposite(j) < |ResizeCursors| && Keys(Negate(pt))[j] == Keys(pt)[Opposite(j)]
  {
    forall j | 0 <= j < |ResizeCursors|
      ensures Opposite(j) < |ResizeCursors| && Keys(Negate(pt))[j] == Keys(pt)[Opposite(j)]
    {
      OppositeEntriesShareCursor(j);
      SqDistNegate(ResizeCursors[j].vec, pt);
    }
  }

  /**
   * When one key sequence is another with each pair swapped, the first least
   * keys of the two lie in the same pair.
   */
  lemma {:induction false} ArgMinOfPairSwap(keys: seq<real>, swapped: seq<real>)
    requires |keys| == |swapped| > 0 && |keys| % 2 == 0
    requires forall j :: 0 <= j < |keys| ==> Opposite(j) < |keys| && swapped[j] == keys[Opposite(j)]
    ensures ArgMin(swapped) / 2 == ArgMin(keys) / 2
  {
    var i, k := ArgMin(keys), ArgMin(swapped);
    assert Opposite(i) / 2 == i / 2 && Opposite(k) / 2 == k / 2;
    assert swapped[Opposite(i)] == keys[i] by {
      assert Opposite(Opposite(i)) == i;
    }
    assert keys[i] == swapped[k];
  }

  /** Entries in the same pair carry the same cursor. */
  lemma SamePairSameCursor(i: nat, k: nat)
    requires i < |ResizeCursors| && k < |ResizeCursors| && i / 2 == k / 2
    ensures ResizeCursors[i].cursor == ResizeCursors[k].cursor
  {
  }

  /** The entry nearest to the mirrored point lies in the same pair as the entry nearest to the point. */
  lemma {:induction false} NearestOfNegated(pt: Point)
    ensures NearestEntry(Negate(pt)) / 2 == NearestEntry(pt) / 2
  {
    KeysOfNegated(pt);
    ArgMinOfPairSwap(Keys(pt), Keys(Negate(pt)));
  }

  /** Mirroring the corner offset mirrors the rotated unit offset. */
  lemma {:induction false} RotatedUnitOffsetNegate(xOff: real, yOff: real, norm: real, cosA: real, sinA: real)
    requires norm != 0.0
    ensures RotatedUnitOffset(-xOff, -yOff, norm, cosA, sinA) == Negate(RotatedUnitOffset(xOff, yOff, norm, cosA, sinA))
  {
    NormaliseNegate(xOff, yOff, norm);
    RotateNegate(Point(xOff / norm, yOff / norm), cosA, sinA);
  }

  /**
   * Diagonally opposite corner handles (top-left and bottom-right, top-right
   * and bottom-left) always show the same cursor, whatever the rotation.
   */
  lemma {:induction false} OppositeCornersShareCursor(xOff: real, yOff: real, norm: real, cosA: real, sinA: real)
    requires norm != 0.0
    ensures BestResizeCursor(-xOff, -yOff, norm, cosA, sinA) == BestResizeCursor(xOff, yOff, norm, cosA, sinA)
  {
    var pt := RotatedUnitOffset(xOff, yOff, norm, cosA, sinA);
    RotatedUnitOffsetNegate(xOff, yOff, norm, cosA, sinA);
    NearestOfNegated(pt);
    SamePairSameCursor(NearestEntry(Negate(pt)), NearestEntry(pt));
  }

  /** A single zero among positive keys is the one selected. */
  lemma ArgMinAtZero(keys: seq<real>, k: nat)
    requires k < |keys| && keys[k] == 0.0
    requires forall j :: 0 <= j < |keys| && j != k ==> keys[j] > 0.0
    ensures ArgMin(keys) == k
  {
  }

  /** Only the table's `(0, 1)` entry is at distance zero from `(0, 1)`. */
  lemma {:induction false} KeysAtDown()
    ensures var ks := Keys(Point(0.0, 1.0));
            ks[2] == 0.0 && ks[0] > 0.0 && ks[1] > 0.0 && ks[3] > 0.0 &&
            ks[4] > 0.0 && ks[5] > 0.0 && ks[6] > 0.0 && ks[7] > 0.0
  {
  }

  /** The entry nearest to `(0, 1)` is the table's third, whose cursor is `ns-resize`. */
  lemma {:induction false} DownCursor()
    ensures NearestEntry(Point(0.0, 1.0)) == 2
    ensures ResizeCursors[NearestEntry(Point(0.0, 1.0))].cursor == NsResize
  {
    KeysAtDown();
    ArgMinAtZero(Keys(Point(0.0, 1.0)), 2);
  }

  /** A quarter turn takes the rightward unit offset to the downward one (screen y grows downwards). */
  lemma QuarterTurnOffset(cosA: real, sinA: real)
    requires cosA == 0.0 && sinA == 1.0
    ensures RotatedUnitOffset(1.0, 0.0, 1.0, cosA, sinA) == Point(0.0, 1.0)
  {
  }

  /** So the quarter-turned handle takes the cursor of the entry nearest to `(0, 1)`. */
  lemma {:induction false} QuarterTurnTarget(cosA: real, sinA: real)
    requires cosA == 0.0 && sinA == 1.0
    ensures BestResizeCursor(1.0, 0.0, 1.0, cosA, sinA) == ResizeCursors[NearestEntry(Point(0.0, 1.0))].cursor
  {
    QuarterTurnOffset(cosA, sinA);
  }

  /**
   * The offset `(1, 0)`, due right of the centre, turned by a quarter turn
   * (cosine 0, sine 1) selects `ns-resize`. The image's handles are its
   * corners, so this fixes the table entry a quarter turn reaches, not a
   * handle drawn on screen.
   */
  lemma {:induction false} QuarterTurnCursor(cosA: real, sinA: real)
    requires cosA == 0.0 && sinA == 1.0
    ensures BestResizeCursor(1.0, 0.0, 1.0, cosA, sinA) == NsResize
  {
    QuarterTurnTarget(cosA, sinA);
    DownCursor();
  }
}

=== FILE: geometry.dfy ===
/**
 * Plane geometry shared by the drawing builders: points, vectors, segments,
 * squared distances and the scales that map world units to screen pixels.
 *
 * Square roots are never computed. Where the drawing code calls
 * `distanceBetweenPoints`, the model takes the distance as a parameter `d`
 * together with the fact `IsDistance(a, b, d)`: `d` is non-negative and its
 * square is the squared distance.
 */
module Geometry {

  datatype Point = Point(x: real, y: real)

  datatype Vector = Vector(dx: real, dy: real)

  /** An oriented segment, the `{start, end}` datum of a measurement. */
  datatype Segment = Segment(start: Point, end: Point)

  /** A scale maps one world coordinate to one screen coordinate. */
  type Scale = real -> real

  /** The default scale of every builder: the identity. */
  const IdentityScale: Scale := x => x

  function Displacement(s: Segment): Vector
  {
    Vector(s.end.x - s.start.x, s.end.y - s.start.y)
  }

  function Add(v: Vector, w: Vector): Vector
  {
    Vector(v.dx + w.dx, v.dy + w.dy)
  }

  function Times(k: real, v: Vector): Vector
  {
    Vector(k * v.dx, k * v.dy)
  }

  function Dot(v: Vector, w: Vector): real
  {
    v.dx * w.dx + v.dy * w.dy
  }

  /** The z-component of the cross product: zero iff the vectors are parallel. */
  function Cross(v: Vector, w: Vector): real
  {
    v.dx * w.dy - v.dy * w.dx
  }

  function NormSq(v: Vector): real
  {
    Dot(v, v)
  }

  function SqDist(a: Point, b: Point): real
  {
    (b.x - a.x) * (b.x - a.x) + (b.y - a.y) * (b.y - a.y)
  }

  function Translate(p: Point, v: Vector): Point
  {
    Point(p.x + v.dx, p.y + v.dy)
  }

  /** `d` is what `distanceBetweenPoints(a, b)` returns. */
  predicate IsDistance(a: Point, b: Point, d: real)
  {
    d >= 0.0 && d * d == SqDist(a, b)
  }

  predicate IsUnit(v: Vector)
  {
    NormSq(v) == 1.0
  }

  /**
   * What the drawing code may assume of `unitPerpVector(s.start, s.end)`: a
   * vector of length one at right angles to the segment. Which of the two
   * normals the helper picks is not assumed.
   */
  predicate IsUnitPerpVector(s: Segment, n: Vector)
  {
    IsUnit(n) && Dot(n, Displacement(s)) == 0.0
  }

  /** A point is at squared distance zero from itself. */
  lemma SqDistSelf(a: Point)
    ensures SqDist(a, a) == 0.0
  {
  }

  /** Points at a positive squared distance are distinct. */
  lemma {:induction false} ApartPointsDiffer(a: Point, b: Point, t: real)
    requires t >= 0.0 && SqDist(a, b) > t
    ensures a != b
  {
    if a == b {
      SqDistSelf(a);
    }
  }

  lemma MulPositive(a: real, b: real)
    requires a > 0.0 && b > 0.0
    ensures a * b > 0.0
  {
  }

  /** For non-negative roots, a smaller root has a smaller square. */
  lemma {:induction false} SmallerRootSmallerSquare(d1: real, s1: real, d2: real, s2: real)
    requires d1 >= 0.0 && d1 * d1 == s1
    requires d2 >= 0.0 && d2 * d2 == s2
    requires d1 < d2
    ensures s1 < s2
  {
    assert s2 - s1 == (d2 - d1) * (d2 + d1);
    MulPositive(d2 - d1, d2 + d1);
  }

  /**
   * Comparing distances and comparing their squares agree, so a choice made on
   * squared distances (no square root) is the choice made on distances.
   */
  lemma {:induction false} DistanceOrderAgrees(d1: real, s1: real, d2: real, s2: real)
    requires d1 >= 0.0 && d1 * d1 == s1
    requires d2 >= 0.0 && d2 * d2 == s2
    ensures d1 < d2 <==> s1 < s2
    ensures d1 <= d2 <==> s1 <= s2
  {
    if d1 < d2 {
      SmallerRootSmallerSquare(d1, s1, d2, s2);
    } else if d2 < d1 {
      SmallerRootSmallerSquare(d2, s2, d1, s1);
    } else {
      assert s1 == d1 * d1 && s2 == d2 * d2;
    }
  }

  /** `d` is the non-negative square root of `s`. */
  predicate IsRoot(d: real, s: real)
  {
    d >= 0.0 && d * d == s
  }

  /** `DistanceOrderAgrees` for roots given through `IsRoot`. */
  lemma {:induction false} RootOrderAgrees(d1: real, s1: real, d2: real, s2: real)
    requires IsRoot(d1, s1) && IsRoot(d2, s2)
    ensures d1 < d2 <==> s1 < s2
  {
    DistanceOrderAgrees(d1, s1, d2, s2);
  }

  /** A distance exceeds a threshold `t` iff the squared distance exceeds `t * t`. */
  lemma {:induction false} LongerThanIffSquared(a: Point, b: Point, d: real, t: real)
    requires IsDistance(a, b, d) && t >= 0.0
    ensures d > t <==> SqDist(a, b) > t * t
  {
    DistanceOrderAgrees(t, t * t, d, SqDist(a, b));
  }
}

=== FILE: gesture.dfy ===
/**
 * Moving, resizing and rotating a background image by dragging
 * (`drawImage` in src/components/Grid/drawing.js).
 *
 * One render pass declares four pointer variables, `startX`, `startY`,
 * `currX` and `currY`, shared by the three drag behaviours: a drag start
 * records the pointer, each drag step records the current pointer and
 * updates a live transform, and the drag end sends one update record for the
 * image. The variables start out `undefined`; since every use of them is
 * arithmetic or a comparison, where `undefined` acts as NaN, the model holds
 * them as `Number`s that start as `NaN`.
 *
 * Pointer positions (`d3.mouse`), the cosine and sine of the image's
 * rotation, pointer-to-origin distances and edge bearings are parameters.
 */
module Gesture {
  import opened Options
  import opened Geometry
  import opened JsValues

  /** An image as bound to its group: centre and size in world units, rotation in degrees. */
  datatype Image = Image(id: string, x: real, y: real, width: real, height: real, r: real)

  /** What the drag end hands to `updateImage`: the bound image and the fields it sends. */
  datatype ImageUpdate = ImageUpdate(image: Image, fields: map<string, Number>)

  const MoveKeys: set<string> := {"x", "y"}
  const ResizeKeys: set<string> := {"width", "height"}
  const RotateKeys: set<string> := {"r"}

  /** Screen pixels per world unit, read off the x scale. */
  function PxPerRWU(xScale: Scale): real
  {
    (xScale(100.0) - xScale(0.0)) / 100.0
  }

  /** For an affine scale `x => k * x + b` the ratio is its slope `k`. */
  lemma PxPerRWUOfAffine(k: real, b: real)
    ensures PxPerRWU(x => k * x + b) == k
  {
  }

  /**
   * `offset(d)`: the pointer's displacement turned back by the image's
   * rotation (`cosInv` and `sinInv` are the cosine and sine of `-r`), so that
   * the live translation is applied inside the rotated group.
   */
  function Offset(dx: real, dy: real, cosInv: real, sinInv: real): Vector
  {
    Vector(dx * cosInv - dy * sinInv, dx * sinInv + dy * cosInv)
  }

  /** Turning the offset forward again by the image's rotation gives the pointer's displacement. */
  lemma {:induction false} OffsetTurnsBack(dx: real, dy: real, cosInv: real, sinInv: real)
    requires cosInv * cosInv + sinInv * sinInv == 1.0
    ensures Offset(dx, dy, cosInv, sinInv).dx * cosInv + Offset(dx, dy, cosInv, sinInv).dy * sinInv == dx
    ensures Offset(dx, dy, cosInv, sinInv).dy * cosInv - Offset(dx, dy, cosInv, sinInv).dx * sinInv == dy
  {
    var o := Offset(dx, dy, cosInv, sinInv);
    assert o.dx * cosInv + o.dy * sinInv == dx * (cosInv * cosInv + sinInv * sinInv);
    assert o.dy * cosInv - o.dx * sinInv == dy * (cosInv * cosInv + sinInv * sinInv);
  }

  /** `base + d / px`, NaN when the displacement is. */
  function ShiftBy(base: real, d: Number, px: real): Number
    requires px != 0.0
  {
    if d.Finite? then Finite(base + d.v / px) else NaN
  }

  /**
   * The move commit: the pointer's screen displacement `(dx, dy)` converted
   * to world units, added to `x` and subtracted from `y` (screen y grows
   * downwards).
   */
  function MoveUpdate(img: Image, dx: Number, dy: Number, px: real): (u: ImageUpdate)
    requires px != 0.0
    ensures u.image == img && u.fields.Keys == MoveKeys
  {
    ImageUpdate(img, map["x" := ShiftBy(img.x, dx, px), "y" := ShiftBy(img.y, Negated(dy), px)])
  }

  function Negated(n: Number): Number
  {
    if n.Finite? then Finite(-n.v) else NaN
  }

  /** The move commit does not depend on the image's rotation. */
  lemma MoveIgnoresRotation(img: Image, r: real, dx: Number, dy: Number, px: real)
    requires px != 0.0
    ensures MoveUpdate(img.(r := r), dx, dy, px).fields == MoveUpdate(img, dx, dy, px).fields
  {
  }

  /** `k * (d / k) == d`. */
  lemma {:induction false} CancelSlope(d: real, k: real)
    requires k != 0.0
    ensures k * (d / k) == d
  {
  }

  /**
   * On a grid whose scales are `x => k * x + b` and `y => -k * y + c` (square
   * pixels, y flipped), the committed position lands the image's centre
   * exactly where the pointer displacement took it on screen.
   */
  lemma {:induction false} MoveFollowsPointer(img: Image, dx: real, dy: real, k: real, b: real, c: real)
    requires k != 0.0
    ensures MoveUpdate(img, Finite(dx), Finite(dy), PxPerRWU(x => k * x + b)).fields
         == map["x" := Finite(img.x + dx / k), "y" := Finite(img.y - dy / k)]
    ensures k * (img.x + dx / k) + b == (k * img.x + b) + dx
    ensures -k * (img.y - dy / k) + c == (-k * img.y + c) + dy
  {
    PxPerRWUOfAffine(k, b);
    CancelSlope(dx, k);
    CancelSlope(dy, k);
    assert k * (img.x + dx / k) == k * img.x + k * (dx / k);
    assert -k * (img.y - dy / k) == -k * img.y + k * (dy / k);
  }

  /** `scalingFactor(d)`: how far the pointer now is from the image centre, relative to where it started. */
  function ScalingFactor(distCurr: real, distStart: real): (f: real)
    requires distStart > 0.0
    ensures f * distStart == distCurr
    ensures distCurr >= 0.0 ==> f >= 0.0
  {
    distCurr / distStart
  }

  /** A pointer as far from the centre as where it started leaves the size unchanged. */
  lemma ScalingFactorOne(d: real)
    requires d > 0.0
    ensures ScalingFactor(d, d) == 1.0
  {
  }

  /** The resize commit: width and height both multiplied by the factor. */
  function ResizeUpdate(img: Image, s: Number): (u: ImageUpdate)
    ensures u.image == img && u.fields.Keys == ResizeKeys
    ensures s.NaN? ==> u.fields["width"] == NaN && u.fields["height"] == NaN
  {
    ImageUpdate(img, map["width" := ScaleBy(img.width, s), "height" := ScaleBy(img.height, s)])
  }

  function ScaleBy(a: real, s: Number): Number
  {
    if s.Finite? then Finite(a * s.v) else NaN
  }

  /** A resize keeps the image's proportions: the new width and height are in the old ratio. */
  lemma {:induction false} ResizeKeepsAspect(img: Image, s: real)
    ensures ResizeUpdate(img, Finite(s)).fields["width"].v * img.height
         == ResizeUpdate(img, Finite(s)).fields["height"].v * img.width
  {
    assert (img.width * s) * img.height == (img.height * s) * img.width;
  }

  /**
   * The committed size follows the pointer: width and height grow in the
   * ratio of the pointer's current distance from the centre to its distance
   * at the drag start.
   */
  lemma {:induction false} ResizeFollowsPointer(img: Image, distCurr: real, distStart: real)
    requires distStart > 0.0
    ensures var u := ResizeUpdate(img, Finite(ScalingFactor(distCurr, distStart)));
            u.fields["width"].Finite? && u.fields["height"].Finite?
            && u.fields["width"].v * distStart == img.width * distCurr
            && u.fields["height"].v * distStart == img.height * distCurr
  {
    var f := ScalingFactor(distCurr, distStart);
    assert (img.width * f) * distStart == img.width * (f * distStart);
    assert (img.height * f) * distStart == img.height * (f * distStart);
  }

  /** A factor of one sends the current size back. */
  lemma ResizeByOne(img: Image)
    ensures ResizeUpdate(img, Finite(1.0)).fields == map["width" := Finite(img.width), "height" := Finite(img.height)]
  {
  }

  /** Dragging a corner of a 2 by 3 image from 10 to 20 pixels away from its centre makes it 4 by 6. */
  lemma ResizeExample(img: Image)
    requires img.width == 2.0 && img.height == 3.0
    ensures ResizeUpdate(img, Finite(ScalingFactor(20.0, 10.0))).fields
         == map["width" := Finite(4.0), "height" := Finite(6.0)]
  {
  }

  /**
   * `rotationAngle(d)`: the bearing change of the pointer as seen from the
   * image centre, in degrees, plus half a turn when the pointer has crossed
   * the vertical line through the centre (`originX` is the centre's screen x).
   */
  function RotationAngle(originX: real, startX: real, currX: real, startDeg: real, currDeg: real): (a: real)
    ensures a - (currDeg - startDeg) in {0.0, 180.0}
    ensures a == currDeg - startDeg <==> (originX > currX) == (originX > startX)
  {
    (currDeg - startDeg) + (if (originX > currX) != (originX > startX) then 180.0 else 0.0)
  }

  /** Without crossing the vertical through the centre the angle is the bearing change. */
  lemma RotationSameSide(originX: real, startX: real, currX: real, startDeg: real, currDeg: real)
    requires (originX > currX) == (originX > startX)
    ensures RotationAngle(originX, startX, currX, startDeg, currDeg) == currDeg - startDeg
  {
  }

  /** Crossing it adds exactly half a turn. */
  lemma RotationCrossing(originX: real, startX: real, currX: real, startDeg: real, currDeg: real)
    requires (originX > currX) != (originX > startX)
    ensures RotationAngle(originX, startX, currX, startDeg, currDeg) == currDeg - startDeg + 180.0
  {
  }

  /** Dragging back the way one came undoes the turn, up to a whole turn. */
  lemma RotationReverse(originX: real, x1: real, x2: real, deg1: real, deg2: real)
    ensures RotationAngle(originX, x1, x2, deg1, deg2) + RotationAngle(originX, x2, x1, deg2, deg1) in {0.0, 360.0}
  {
  }

  /** Two drags in a row turn the image as one drag from the first start to the last pointer, up to a whole turn. */
  lemma RotationCompose(originX: real, x1: real, x2: real, x3: real, deg1: real, deg2: real, deg3: real)
    ensures RotationAngle(originX, x1, x2, deg1, deg2) + RotationAngle(originX, x2, x3, deg2, deg3)
          - RotationAngle(originX, x1, x3, deg1, deg3) in {0.0, 360.0}
  {
  }

  /** The rotate commit: the angle added to the current rotation. */
  function RotateUpdate(img: Image, angle: Number): (u: ImageUpdate)
    ensures u.image == img && u.fields.Keys == RotateKeys
    ensures angle.NaN? ==> u.fields["r"] == NaN
  {
    ImageUpdate(img, map["r" := if angle.Finite? then Finite(angle.v + img.r) else NaN])
  }

  /**
   * The committed rotation is the image's rotation plus the pointer's bearing
   * change, plus half a turn when the pointer crossed the centre's vertical.
   */
  lemma RotateAddsAngle(img: Image, originX: real, startX: real, currX: real, startDeg: real, currDeg: real)
    ensures var u := RotateUpdate(img, Finite(RotationAngle(originX, startX, currX, startDeg, currDeg)));
            u.fields["r"].Finite?
            && u.fields["r"].v - img.r - (currDeg - startDeg) in {0.0, 180.0}
            && (u.fields["r"].v == img.r + (currDeg - startDeg) <==> (originX > currX) == (originX > startX))
  {
  }

  /**
   * A drag that stays right of the centre while the pointer's bearing from it
   * goes from 0 to 90 degrees turns the image by 90 degrees.
   */
  lemma RotateExample(img: Image, originX: real)
    requires originX < 40.0
    ensures RotateUpdate(img, Finite(RotationAngle(originX, 50.0, 45.0, 0.0, 90.0))).fields
         == map["r" := Finite(img.r + 90.0)]
  {
  }

  /** The pointer variables of one render pass and the drag handlers that share them. */
  class ImageGestures {
    const xScale: Scale
    const yScale: Scale
    const pxPerRWU: real
    var startX: Number
    var startY: Number
    var currX: Number
    var currY: Number
    /** Between a drag start and its drag end. */
    ghost var active: bool

    /** A drag in progress has a recorded start. */
    ghost predicate Valid()
      reads this
    {
      active ==> startX.Finite? && startY.Finite?
    }

    constructor (xScale: Scale, yScale: Scale)
      ensures this.xScale == xScale && this.yScale == yScale
      ensures pxPerRWU == PxPerRWU(xScale)
      ensures startX == NaN && startY == NaN && currX == NaN && currY == NaN
      ensures !active && Valid()
    {
      this.xScale := xScale;
      this.yScale := yScale;
      pxPerRWU := PxPerRWU(xScale);
      startX, startY, currX, currY := NaN, NaN, NaN, NaN;
      active := false;
    }

    /** The image centre on screen. */
    function Origin(img: Image): Point
      reads this
    {
      Point(xScale(img.x), yScale(img.y))
    }

    /** Drag start as the source writes it: only the start is recorded. */
    method StartAsWritten(px: real, py: real)
      modifies this
      ensures startX == Finite(px) && startY == Finite(py)
      ensures currX == old(currX) && currY == old(currY)
      ensures active && Valid()
    {
      startX, startY := Finite(px), Finite(py);
      active := true;
    }

    /**
     * Drag start, corrected: the current pointer is recorded as well, so a
     * drag end that follows with no drag step in between sends no change.
     */
    method Start(px: real, py: real)
      modifies this
      ensures startX == Finite(px) && startY == Finite(py)
      ensures currX == Finite(px) && currY == Finite(py)
      ensures active && Valid()
    {
      startX, startY := Finite(px), Finite(py);
      currX, currY := Finite(px), Finite(py);
      active := true;
    }

    /** A drag step: record the pointer. */
    method Track(px: real, py: real)
      requires active && Valid()
      modifies this
      ensures currX == Finite(px) && currY == Finite(py)
      ensures startX == old(startX) && startY == old(startY)
      ensures active && Valid()
    {
      currX, currY := Finite(px), Finite(py);
    }

    /** `drag.move`: record the pointer and return the live translation. */
    method DragMove(px: real, py: real, cosInv: real, sinInv: real) returns (t: Vector)
      requires active && Valid()
      modifies this
      ensures currX == Finite(px) && currY == Finite(py)
      ensures startX == old(startX) && startY == old(startY)
      ensures active && Valid()
      ensures t == Offset(px - startX.v, py - startY.v, cosInv, sinInv)
    {
      Track(px, py);
      t := Offset(px - startX.v, py - startY.v, cosInv, sinInv);
    }

    /** `end.move`: the move commit from the recorded pointers. */
    method EndMove(img: Image) returns (u: ImageUpdate)
      requires active && Valid() && pxPerRWU != 0.0
      modifies this
      ensures u == MoveUpdate(img, Minus(currX, startX), Minus(currY, startY), pxPerRWU)
      ensures startX == old(startX) && startY == old(startY)
      ensures currX == old(currX) && currY == old(currY)
      ensures !active && Valid()
    {
      u := MoveUpdate(img, Minus(currX, startX), Minus(currY, startY), pxPerRWU);
      active := false;
    }

    /**
     * `drag.resize`: record the pointer and return the live scale factor.
     * `distCurr` and `distStart` are the pointer's distances from the centre.
     */
    method DragResize(img: Image, px: real, py: real, distCurr: real, distStart: real) returns (s: real)
      requires active && Valid()
      requires IsDistance(Point(px, py), Origin(img), distCurr)
      requires IsDistance(Point(startX.v, startY.v), Origin(img), distStart) && distStart > 0.0
      modifies this
      ensures currX == Finite(px) && currY == Finite(py)
      ensures startX == old(startX) && startY == old(startY)
      ensures active && Valid()
      ensures s == ScalingFactor(distCurr, distStart)
    {
      Track(px, py);
      s := ScalingFactor(distCurr, distStart);
    }

    /**
     * `end.resize`: the resize commit. The current distance is only
     * meaningful once a pointer has been recorded; before that it is NaN.
     */
    method EndResize(img: Image, distCurr: real, distStart: real) returns (u: ImageUpdate)
      requires active && Valid()
      requires currX.Finite? && currY.Finite? ==> IsDistance(Point(currX.v, currY.v), Origin(img), distCurr)
      requires IsDistance(Point(startX.v, startY.v), Origin(img), distStart) && distStart > 0.0
      modifies this
      ensures u == ResizeUpdate(img,
                     if currX.Finite? && currY.Finite? then Finite(ScalingFactor(distCurr, distStart)) else NaN)
      ensures startX == old(startX) && startY == old(startY)
      ensures currX == old(currX) && currY == old(currY)
      ensures !active && Valid()
    {
      var s := if currX.Finite? && currY.Finite? then Finite(ScalingFactor(distCurr, distStart)) else NaN;
      u := ResizeUpdate(img, s);
      active := false;
    }

    /**
     * `drag.rotate`: record the pointer and return the live rotation.
     * `startDeg` and `currDeg` are the bearings of the start and current
     * pointer from the centre, in degrees.
     */
    method DragRotate(img: Image, px: real, py: real, startDeg: real, currDeg: real) returns (angle: real)
      requires active && Valid()
      modifies this
      ensures currX == Finite(px) && currY == Finite(py)
      ensures startX == old(startX) && startY == old(startY)
      ensures active && Valid()
      ensures angle == RotationAngle(xScale(img.x), startX.v, px, startDeg, currDeg)
    {
      Track(px, py);
      angle := RotationAngle(xScale(img.x), startX.v, px, startDeg, currDeg);
    }

    /** `end.rotate`: the rotate commit; NaN when no pointer was ever recorded. */
    method EndRotate(img: Image, startDeg: real, currDeg: real) returns (u: ImageUpdate)
      requires active && Valid()
      modifies this
      ensures startX == old(startX) && startY == old(startY)
      ensures currX == old(currX) && currY == old(currY)
      ensures u == RotateUpdate(img,
                     if currX.Finite? && currY.Finite?
                     then Finite(RotationAngle(xScale(img.x), startX.v, currX.v, startDeg, currDeg))
                     else NaN)
      ensures !active && Valid()
    {
      var angle := if currX.Finite? && currY.Finite?
                   then Finite(RotationAngle(xScale(img.x), startX.v, currX.v, startDeg, currDeg))
                   else NaN;
      u := RotateUpdate(img, angle);
      active := false;
    }
  }

  /** The chart returned by `drawImage()`: its configurable scales. */
  class ImageChart {
    var xScale: Scale
    var yScale: Scale

    constructor ()
      ensures xScale == IdentityScale && yScale == IdentityScale
    {
      xScale := IdentityScale;
      yScale := IdentityScale;
    }

    /** `chart.xScale([s])`. */
    method XScale(arg: Option<Scale>) returns (current: Scale)
      modifies this
      ensures arg.None? ==> current == old(xScale) && unchanged(this)
      ensures arg.Some? ==> xScale == arg.value && current == arg.value
      ensures yScale == old(yScale)
    {
      if arg.Some? {
        xScale := arg.value;
      }
      current := xScale;
    }

    /** `chart.yScale([s])`. */
    method YScale(arg: Option<Scale>) returns (current: Scale)
      modifies this
      ensures arg.None? ==> current == old(yScale) && unchanged(this)
      ensures arg.Some? ==> yScale == arg.value && current == arg.value
      ensures xScale == old(xScale)
    {
      if arg.Some? {
        yScale := arg.value;
      }
      current := yScale;
    }

    /** A render pass: fresh pointer variables, all undefined, over the current scales. */
    method Render() returns (g: ImageGestures)
      ensures fresh(g)
      ensures g.xScale == xScale && g.yScale == yScale && g.pxPerRWU == PxPerRWU(xScale)
      ensures g.startX == NaN && g.startY == NaN && g.currX == NaN && g.currY == NaN
      ensures !g.active && g.Valid()
    {
      g := new ImageGestures(xScale, yScale);
    }
  }

  /**
   * A click on an image that does not move the pointer, as written: d3 fires
   * the drag start and the drag end with no drag step between, so the commit
   * is computed from pointer variables that were never set.
   */
  method ClickAsWritten(xScale: Scale, yScale: Scale, img: Image, px: real, py: real) returns (u: ImageUpdate)
    requires PxPerRWU(xScale) != 0.0
    ensures u.fields == map["x" := NaN, "y" := NaN]
  {
    var g := new ImageGestures(xScale, yScale);
    g.StartAsWritten(px, py);
    u := g.EndMove(img);
  }

  /** The same click with the corrected drag start leaves the image where it is. */
  method Click(xScale: Scale, yScale: Scale, img: Image, px: real, py: real) returns (u: ImageUpdate)
    requires PxPerRWU(xScale) != 0.0
    ensures u.fields == map["x" := Finite(img.x), "y" := Finite(img.y)]
  {
    var g := new ImageGestures(xScale, yScale);
    g.Start(px, py);
    u := g.EndMove(img);
  }
}

=== FILE: guideline.dfy ===
/**
 * The guidelines drawn from a daylighting control to the nearest wall
 * (`drawDaylightingControlGuideline` in src/components/Grid/drawing.js): the
 * segment from the control to its projection on the nearest edge, split into a
 * part along the edge and a perpendicular remainder, with every piece that is
 * too short to see dropped before it reaches the measurement builder.
 */
module Guideline {
  import opened Options
  import opened Geometry
  import opened Measure

  /** The edge nearest to a control: its endpoints and the control's projection on it. */
  datatype NearestEdge = NearestEdge(v1: Point, v2: Point, proj: Point)

  /** One daylighting control, as bound to the guideline selection. */
  datatype Control = Control(loc: Point, nearestEdge: NearestEdge)

  /** Pieces at most this long (in world units) are not drawn. */
  const MinLength: real := 0.01

  /**
   * `distanceBetweenPoints(start, end) > 0.01`, compared through squares. A
   * visible piece has distinct endpoints, so the measurement's unit vectors exist.
   */
  predicate Visible(s: Segment)
    ensures Visible(s) ==> s.start != s.end
  {
    if SqDist(s.start, s.end) > MinLength * MinLength then
      ApartPointsDiffer(s.start, s.end, MinLength * MinLength);
      true
    else
      false
  }

  /** Comparing squared lengths decides the same as comparing lengths. */
  lemma VisibleIffLonger(s: Segment, d: real)
    requires IsDistance(s.start, s.end, d)
    ensures Visible(s) <==> d > MinLength
  {
    LongerThanIffSquared(s.start, s.end, d, MinLength);
  }

  /** The three candidate pieces for one control. */
  datatype Pieces = Pieces(v: Segment, perp: Segment, parallel: Segment)

  /**
   * Splits the segment `v` from the control to its projection along the unit
   * edge direction `dir`: `parallel` runs from the control along `dir` by the
   * dot product, `perp` closes the triangle.
   */
  function Decompose(c: Control, dir: Vector): (p: Pieces)
    ensures p.v == Segment(c.loc, c.nearestEdge.proj)
    ensures p.parallel.start == p.v.start && p.perp.start == p.parallel.end && p.perp.end == p.v.end
    ensures Add(Displacement(p.parallel), Displacement(p.perp)) == Displacement(p.v)
  {
    var v := Segment(c.loc, c.nearestEdge.proj);
    var dot := Dot(Displacement(v), dir);
    var parallel := Segment(v.start, Translate(v.start, Times(dot, dir)));
    var perp := Segment(parallel.end, v.end);
    Pieces(v, perp, parallel)
  }

  /** The projection step, on plain numbers: removing the component along a unit vector leaves a normal vector. */
  lemma {:induction false} RemainderIsNormal(vx: real, vy: real, ux: real, uy: real)
    requires ux * ux + uy * uy == 1.0
    ensures (vx - (vx * ux + vy * uy) * ux) * ux + (vy - (vx * ux + vy * uy) * uy) * uy == 0.0
  {
    var t := vx * ux + vy * uy;
    assert (vx - t * ux) * ux + (vy - t * uy) * uy == t - t * (ux * ux + uy * uy);
  }

  /** With a unit `dir` the perpendicular piece is at right angles to the edge. */
  lemma {:induction false} PerpIsNormalToEdge(c: Control, dir: Vector)
    requires IsUnit(dir)
    ensures Dot(Displacement(Decompose(c, dir).perp), dir) == 0.0
  {
    var v := Displacement(Segment(c.loc, c.nearestEdge.proj));
    RemainderIsNormal(v.dx, v.dy, dir.dx, dir.dy);
  }

  /** The parallel piece lies along the edge. */
  lemma {:induction false} ParallelAlongEdge(c: Control, dir: Vector)
    ensures Cross(Displacement(Decompose(c, dir).parallel), dir) == 0.0
  {
    var t := Dot(Displacement(Segment(c.loc, c.nearestEdge.proj)), dir);
    assert Cross(Times(t, dir), dir) == t * (dir.dx * dir.dy - dir.dy * dir.dx);
  }

  /** `xs` can be obtained from `ys` by deleting elements. */
  predicate IsSubsequence<T(==)>(xs: seq<T>, ys: seq<T>)
    decreases |ys|
  {
    if xs == [] then true
    else if ys == [] then false
    else if xs[0] == ys[0] then IsSubsequence(xs[1..], ys[1..])
    else IsSubsequence(xs, ys[1..])
  }

  /**
   * `.filter(...)` with the visibility test: keeps exactly the visible pieces,
   * in order and as often as they occur.
   */
  function KeepVisible(segs: seq<Segment>): (r: seq<Segment>)
    ensures |r| <= |segs|
    ensures forall s :: s in r <==> s in segs && Visible(s)
    ensures forall s :: multiset(r)[s] == if Visible(s) then multiset(segs)[s] else 0
    ensures IsSubsequence(r, segs)
  {
    if segs == [] then []
    else
      var rest := KeepVisible(segs[1..]);
      assert segs == [segs[0]] + segs[1..];
      assert multiset(segs) == multiset{segs[0]} + multiset(segs[1..]);
      assert forall s :: s in segs <==> s == segs[0] || s in segs[1..];
      if Visible(segs[0]) then
        assert multiset([segs[0]] + rest) == multiset{segs[0]} + multiset(rest);
        [segs[0]] + rest
      else
        rest
  }

  /**
   * The guidelines for one control, in the order `v`, `perp`, `parallel`: each
   * candidate piece appears exactly when it is visible, twice when two
   * candidates coincide.
   */
  function ControlGuidelines(c: Control, dir: Vector): (r: seq<Segment>)
    ensures |r| <= 3
    ensures IsSubsequence(r, [Decompose(c, dir).v, Decompose(c, dir).perp, Decompose(c, dir).parallel])
    ensures forall s :: s in r <==> Visible(s) && s in [Decompose(c, dir).v, Decompose(c, dir).perp, Decompose(c, dir).parallel]
    ensures forall s :: multiset(r)[s] ==
              if Visible(s) then multiset([Decompose(c, dir).v, Decompose(c, dir).perp, Decompose(c, dir).parallel])[s]
              else 0
  {
    var p := Decompose(c, dir);
    KeepVisible([p.v, p.perp, p.parallel])
  }

  /** The unit direction of a control's nearest edge, as `unitVector` gives it. */
  function EdgeDirection(c: Control, unitVector: (Point, Point) -> Vector): Vector
  {
    unitVector(c.nearestEdge.v1, c.nearestEdge.v2)
  }

  /** `_.flatMap`: the lists `f` gives for the elements of `xs`, concatenated in order. */
  function FlatMap<A, B(==, !new)>(xs: seq<A>, f: A -> seq<B>): (r: seq<B>)
    ensures forall b :: b in r <==> exists i :: 0 <= i < |xs| && b in f(xs[i])
  {
    if xs == [] then []
    else
      assert forall i :: 0 < i < |xs| ==> xs[i] == xs[1..][i - 1];
      f(xs[0]) + FlatMap(xs[1..], f)
  }

  /** The concatenation over a single element is that element's list. */
  lemma FlatMapSingle<A, B(!new)>(x: A, f: A -> seq<B>)
    ensures FlatMap([x], f) == f(x)
  {
    assert [x][1..] == [];
  }

  /**
   * Concatenating over `xs + ys` is concatenating over `xs`, then over `ys`:
   * the lists are joined in input order, each as many times as its element occurs.
   */
  lemma {:induction false} FlatMapAppend<A, B(!new)>(xs: seq<A>, ys: seq<A>, f: A -> seq<B>)
    ensures FlatMap(xs + ys, f) == FlatMap(xs, f) + FlatMap(ys, f)
    decreases |xs|
  {
    if xs == [] {
      assert xs + ys == ys;
    } else {
      assert (xs + ys)[1..] == xs[1..] + ys;
      FlatMapAppend(xs[1..], ys, f);
    }
  }

  /** When every list has at most `k` elements, the concatenation has at most `k` per element. */
  lemma {:induction false} FlatMapLength<A, B(!new)>(xs: seq<A>, f: A -> seq<B>, k: nat)
    requires forall i :: 0 <= i < |xs| ==> |f(xs[i])| <= k
    ensures |FlatMap(xs, f)| <= k * |xs|
    decreases |xs|
  {
    if xs != [] {
      assert forall i :: 0 < i < |xs| ==> xs[i] == xs[1..][i - 1];
      FlatMapLength(xs[1..], f, k);
      assert k * |xs| == k + k * |xs[1..]|;
    }
  }

  /**
   * The guidelines of all bound controls. `unitVector` stands for the helper
   * of the same name, applied to the nearest edge's endpoints. A piece is
   * drawn exactly when it is among the guidelines of some control.
   */
  function AllGuidelines(cs: seq<Control>, unitVector: (Point, Point) -> Vector): (r: seq<Segment>)
    ensures |r| <= 3 * |cs|
    ensures forall s :: s in r ==> Visible(s)
    ensures forall s :: s in r <==> exists i :: 0 <= i < |cs| && s in ControlGuidelines(cs[i], EdgeDirection(cs[i], unitVector))
  {
    var f := c => ControlGuidelines(c, EdgeDirection(c, unitVector));
    FlatMapLength(cs, f, 3);
    FlatMap(cs, f)
  }

  /** One control's pieces are its own guidelines. */
  lemma AllGuidelinesSingle(c: Control, unitVector: (Point, Point) -> Vector)
    ensures AllGuidelines([c], unitVector) == ControlGuidelines(c, EdgeDirection(c, unitVector))
  {
    FlatMapSingle(c, d => ControlGuidelines(d, EdgeDirection(d, unitVector)));
  }

  /**
   * The pieces for two runs of controls are the pieces of the first run
   * followed by those of the second, so a piece two controls both yield is
   * drawn twice.
   */
  lemma AllGuidelinesAppend(cs1: seq<Control>, cs2: seq<Control>, unitVector: (Point, Point) -> Vector)
    ensures AllGuidelines(cs1 + cs2, unitVector) == AllGuidelines(cs1, unitVector) + AllGuidelines(cs2, unitVector)
  {
    FlatMapAppend(cs1, cs2, c => ControlGuidelines(c, EdgeDirection(c, unitVector)));
  }

  /** No piece that reaches the measurement builder has coinciding endpoints. */
  lemma AllGuidelinesProper(cs: seq<Control>, unitVector: (Point, Point) -> Vector)
    ensures forall s :: s in AllGuidelines(cs, unitVector) ==> s.start != s.end
  {
  }

  /**
   * The guideline builder: its own scales, and the measurement builder it
   * configures once with no offset and the label in the middle.
   */
  class DaylightingGuideline {
    var xScale: Scale
    var yScale: Scale
    const measure: DistanceMeasure

    constructor ()
      ensures xScale == IdentityScale && yScale == IdentityScale
      ensures fresh(measure)
      ensures measure.lineOffset == 0.0 && measure.labelPosition == 0.5
      ensures measure.xScale == IdentityScale && measure.yScale == IdentityScale
    {
      xScale := IdentityScale;
      yScale := IdentityScale;
      var m := new DistanceMeasure();
      var _ := m.LineOffset(Some(0.0));
      var _, _ := m.LabelPosition(Some(0.5));
      measure := m;
    }

    /** `chart.xScale([s])`. */
    method XScale(arg: Option<Scale>) returns (current: Scale)
      modifies this
      ensures arg.None? ==> current == old(xScale) && unchanged(this)
      ensures arg.Some? ==> xScale == arg.value && current == arg.value
      ensures yScale == old(yScale)
    {
      if arg.Some? {
        xScale := arg.value;
      }
      current := xScale;
    }

    /** `chart.yScale([s])`. */
    method YScale(arg: Option<Scale>) returns (current: Scale)
      modifies this
      ensures arg.None? ==> current == old(yScale) && unchanged(this)
      ensures arg.Some? ==> yScale == arg.value && current == arg.value
      ensures xScale == old(xScale)
    {
      if arg.Some? {
        yScale := arg.value;
      }
      current := yScale;
    }

    /**
     * One render pass: hand the scales to the measurement builder and compute
     * the pieces it is given to draw.
     */
    method Render(cs: seq<Control>, unitVector: (Point, Point) -> Vector) returns (data: seq<Segment>)
      modifies measure
      ensures data == AllGuidelines(cs, unitVector)
      ensures measure.xScale == xScale && measure.yScale == yScale
      ensures measure.lineOffset == old(measure.lineOffset)
      ensures measure.labelPosition == old(measure.labelPosition)
    {
      var _ := measure.XScale(Some(xScale));
      var _ := measure.YScale(Some(yScale));
      data := AllGuidelines(cs, unitVector);
    }
  }
}

=== FILE: jsvalues.dfy ===
/**
 * The slice of JavaScript values the model needs: numbers (with NaN, the
 * result of arithmetic on `undefined`), plain objects as finite maps, arrays,
 * property reads that throw on `undefined` and `null`, truthiness, strict
 * equality, and the decimal text of a whole number.
 */
module JsValues {
  import opened Options

  /** A JavaScript number. Infinities are not modelled. */
  datatype Number = NaN | Finite(v: real)

  datatype Value =
    | Undefined
    | Null
    | Bool(b: bool)
    | Num(n: Number)
    | Str(s: string)
    | Arr(items: seq<Value>)
    | Obj(props: map<string, Value>)

  predicate Nullish(v: Value)
  {
    v.Undefined? || v.Null?
  }

  /** How `if (v)` reads a value. */
  predicate Truthy(v: Value)
  {
    match v
    case Undefined => false
    case Null => false
    case Bool(b) => b
    case Num(n) => n.Finite? && n.v != 0.0
    case Str(s) => s != ""
    case Arr(_) => true
    case Obj(_) => true
  }

  /** `a === b`. Objects and arrays are compared by contents, not identity. */
  predicate StrictEquals(a: Value, b: Value)
  {
    a == b && a != Num(NaN)
  }

  /** `v.key`: `None` when the read throws a TypeError, an absent key reads as `undefined`. */
  function Read(v: Value, key: string): (r: Option<Value>)
    ensures r.None? <==> Nullish(v)
    ensures v.Obj? ==> r == Some(if key in v.props then v.props[key] else Undefined)
  {
    match v
    case Undefined => None
    case Null => None
    case Obj(m) => Some(if key in m then m[key] else Undefined)
    case _ => Some(Undefined)
  }

  /** `Object.keys(v)` as a set; `None` when it throws. Arrays and primitives contribute no named keys here. */
  function OwnKeys(v: Value): (r: Option<set<string>>)
    ensures r.None? <==> Nullish(v)
  {
    match v
    case Undefined => None
    case Null => None
    case Obj(m) => Some(m.Keys)
    case _ => Some({})
  }

  /** `a - b` on numbers. */
  function Minus(a: Number, b: Number): (r: Number)
    ensures r.Finite? <==> a.Finite? && b.Finite?
  {
    if a.Finite? && b.Finite? then Finite(a.v - b.v) else NaN
  }

  function DigitChar(d: nat): (c: char)
    requires d < 10
    ensures '0' <= c <= '9'
  {
    "0123456789"[d]
  }

  function DigitValue(c: char): (d: nat)
    requires '0' <= c <= '9'
    ensures d < 10
  {
    (c as int - '0' as int) as nat
  }

  /** The text of a whole number, as `'' + n` writes it: decimal digits, no leading zero. */
  function DecimalString(n: nat): (s: string)
    ensures |s| >= 1
    ensures forall i :: 0 <= i < |s| ==> '0' <= s[i] <= '9'
    ensures n > 0 ==> s[0] != '0'
  {
    if n < 10 then [DigitChar(n)] else DecimalString(n / 10) + [DigitChar(n % 10)]
  }

  predicate AllDigits(s: string)
  {
    forall i :: 0 <= i < |s| ==> '0' <= s[i] <= '9'
  }

  /** Reads a string of decimal digits back as a number. */
  function ParseDecimal(s: string): nat
    requires AllDigits(s)
  {
    if s == [] then 0 else 10 * ParseDecimal(s[..|s| - 1]) + DigitValue(s[|s| - 1])
  }

  lemma DigitRoundTrip(d: nat)
    requires d < 10
    ensures DigitValue(DigitChar(d)) == d
  {
  }

  /** The decimal text of a number reads back as that number. */
  lemma {:induction false} DecimalRoundTrip(n: nat)
    ensures ParseDecimal(DecimalString(n)) == n
  {
    var s := DecimalString(n);
    if n < 10 {
      DigitRoundTrip(n);
      assert s[..0] == [];
    } else {
      DecimalRoundTrip(n / 10);
      DigitRoundTrip(n % 10);
      assert s[..|s| - 1] == DecimalString(n / 10);
    }
  }
}

=== FILE: measure.dfy ===
/**
 * The dimension annotation drawn for one segment (`distanceMeasure` in
 * src/components/Grid/drawing.js): where the label goes and what it says, the
 * line drawn between the two arrowheads, and how each arrowhead is turned.
 *
 * Rendering itself (SVG elements, transform strings, the arrowhead path) is not
 * modelled; a render pass is reduced to the numbers it writes into the DOM,
 * collected in `Marks`.
 */
module Measure {
  import opened Options
  import opened Geometry

  /** Distance in pixels by which the whole annotation is moved off the segment. */
  const DefaultLineOffset: real := 20.0

  /** Where along the segment the label sits: 0 at the start, 1 at the end. */
  const DefaultLabelPosition: real := 1.0

  /** Pixels the label is nudged along the segment's normal. */
  const LabelNudge: real := 4.0

  /** Pixels by which each end of the drawn line stops short of the endpoint, leaving room for the arrowhead. */
  const ArrowInset: real := 11.5

  function ScalePoint(xScale: Scale, yScale: Scale, p: Point): Point
  {
    Point(xScale(p.x), yScale(p.y))
  }

  function Midpoint(a: Point, b: Point): Point
  {
    Point((a.x + b.x) / 2.0, (a.y + b.y) / 2.0)
  }

  function Reverse(s: Segment): Segment
  {
    Segment(s.end, s.start)
  }

  /** The label's anchor: the scaled endpoints mixed in the proportion `p`. */
  function LabelAnchor(xScale: Scale, yScale: Scale, p: real, s: Segment): (q: Point)
    ensures q.x - xScale(s.start.x) == p * (xScale(s.end.x) - xScale(s.start.x))
    ensures q.y - yScale(s.start.y) == p * (yScale(s.end.y) - yScale(s.start.y))
  {
    Point((1.0 - p) * xScale(s.start.x) + p * xScale(s.end.x),
          (1.0 - p) * yScale(s.start.y) + p * yScale(s.end.y))
  }

  /** At position 0 the label sits on the scaled start. */
  lemma LabelAtStart(xScale: Scale, yScale: Scale, s: Segment)
    ensures LabelAnchor(xScale, yScale, 0.0, s) == ScalePoint(xScale, yScale, s.start)
  {
  }

  /** At position 1 (the default) the label sits on the scaled end. */
  lemma LabelAtEnd(xScale: Scale, yScale: Scale, s: Segment)
    ensures LabelAnchor(xScale, yScale, DefaultLabelPosition, s) == ScalePoint(xScale, yScale, s.end)
  {
  }

  /** At position 0.5 the label sits on the midpoint of the scaled segment. */
  lemma LabelAtMiddle(xScale: Scale, yScale: Scale, s: Segment)
    ensures LabelAnchor(xScale, yScale, 0.5, s)
         == Midpoint(ScalePoint(xScale, yScale, s.start), ScalePoint(xScale, yScale, s.end))
  {
  }

  /** `Math.round`: the nearest integer, halves rounded up. */
  function Round(x: real): (n: int)
    ensures x - 0.5 < n as real <= x + 0.5
  {
    (x + 0.5).Floor
  }

  /** The number shown by the label: the length rounded to two decimals. */
  function RoundedLength(d: real): (r: real)
    ensures d - 0.005 < r <= d + 0.005
    ensures (r * 100.0).Floor as real == r * 100.0
  {
    Round(d * 100.0) as real / 100.0
  }

  /** Rounding a length that already has two decimals changes nothing. */
  lemma {:induction false} RoundedLengthIdempotent(d: real)
    ensures RoundedLength(RoundedLength(d)) == RoundedLength(d)
  {
    var n := Round(d * 100.0);
    assert RoundedLength(d) * 100.0 == n as real;
    assert Round(n as real) == n;
  }

  /** A length of 3.14159 is labelled 3.14. */
  lemma RoundedLengthExample()
    ensures RoundedLength(3.14159) == 3.14
  {
    assert Round(314.159) == 314;
  }

  /**
   * The line between the arrowheads: each scaled endpoint pulled 11.5 pixels
   * towards the other along the unit direction `u`, with the y-component
   * flipped for a y-down screen.
   */
  function InsetLine(xScale: Scale, yScale: Scale, s: Segment, u: Vector): (l: Segment)
    ensures Midpoint(l.start, l.end)
         == Midpoint(ScalePoint(xScale, yScale, s.start), ScalePoint(xScale, yScale, s.end))
  {
    Segment(Point(xScale(s.start.x) + u.dx * ArrowInset, yScale(s.start.y) - u.dy * ArrowInset),
            Point(xScale(s.end.x) - u.dx * ArrowInset, yScale(s.end.y) + u.dy * ArrowInset))
  }

  /** The drawn line is the scaled segment shortened by twice the inset along the flipped direction. */
  lemma InsetLineShortens(xScale: Scale, yScale: Scale, s: Segment, u: Vector)
    ensures Displacement(InsetLine(xScale, yScale, s, u))
         == Add(Displacement(Segment(ScalePoint(xScale, yScale, s.start), ScalePoint(xScale, yScale, s.end))),
                Times(-2.0 * ArrowInset, Vector(u.dx, -u.dy)))
  {
  }

  /** The arrowheads' base turn: 0 or 180 degrees depending on how the endpoints are ordered. */
  function ArrowAdjust(s: Segment): (adjust: real)
    ensures adjust == 0.0 || adjust == 180.0
  {
    if s.start.x == s.end.x then
      (if s.start.y > s.end.y then 0.0 else 180.0)
    else
      (if s.start.x > s.end.x then 0.0 else 180.0)
  }

  /**
   * On a vertical segment the base turn is 0 exactly when the start lies above
   * the end in world coordinates; otherwise exactly when the start lies right
   * of the end.
   */
  lemma ArrowAdjustRule(s: Segment)
    ensures s.start.x == s.end.x ==> (ArrowAdjust(s) == 0.0 <==> s.start.y > s.end.y)
    ensures s.start.x != s.end.x ==> (ArrowAdjust(s) == 0.0 <==> s.start.x > s.end.x)
  {
  }

  /** Reversing a proper segment switches the base turn between 0 and 180. */
  lemma ArrowAdjustReverse(s: Segment)
    requires s.start != s.end
    ensures ArrowAdjust(Reverse(s)) == 180.0 - ArrowAdjust(s)
  {
  }

  /** A degenerate segment gets the base turn 180 whichever way it is read. */
  lemma ArrowAdjustDegenerate(p: Point)
    ensures ArrowAdjust(Segment(p, p)) == 180.0
  {
  }

  /**
   * `rotate(d)`: the start arrowhead's turn, given the edge direction in
   * degrees: minus the edge angle, possibly plus half a turn.
   */
  function StartArrowRotation(s: Segment, angleDeg: real): (rot: real)
    ensures rot == -angleDeg || rot == 180.0 - angleDeg
    ensures rot == -angleDeg <==> if s.start.x == s.end.x then s.start.y > s.end.y else s.start.x > s.end.x
  {
    ArrowAdjust(s) - angleDeg
  }

  /** The end arrowhead is turned half a turn further than the start arrowhead. */
  function EndArrowRotation(s: Segment, angleDeg: real): (rot: real)
    ensures rot - StartArrowRotation(s, angleDeg) == 180.0
  {
    180.0 + StartArrowRotation(s, angleDeg)
  }

  /** The group translation: `lineOffset` times the unit normal. */
  function GroupOffset(lineOffset: real, n: Vector): Vector
  {
    Times(lineOffset, n)
  }

  /** Scaling a vector by `k` scales its dot product with any vector by `k`. */
  lemma {:induction false} DotTimes(k: real, n: Vector, v: Vector)
    ensures Dot(Times(k, n), v) == k * Dot(n, v)
  {
  }

  /** Scaling a vector by `k` scales its squared length by `k * k`. */
  lemma {:induction false} NormSqTimes(k: real, n: Vector)
    ensures NormSq(Times(k, n)) == k * k * NormSq(n)
  {
  }

  /**
   * The annotation is moved off the segment at right angles to it, by exactly
   * `lineOffset` pixels (its square is the offset's squared length).
   */
  lemma {:induction false} GroupOffsetIsNormal(lineOffset: real, s: Segment, n: Vector)
    requires IsUnitPerpVector(s, n)
    ensures Dot(GroupOffset(lineOffset, n), Displacement(s)) == 0.0
    ensures NormSq(GroupOffset(lineOffset, n)) == lineOffset * lineOffset
  {
    DotTimes(lineOffset, n, Displacement(s));
    NormSqTimes(lineOffset, n);
  }

  /** The label's nudge: four pixels along the unit normal. */
  function LabelNudgeVector(n: Vector): Vector
  {
    Times(LabelNudge, n)
  }

  /** The nudge moves the label four pixels away from the line, at right angles to it. */
  lemma {:induction false} LabelNudgeIsNormal(s: Segment, n: Vector)
    requires IsUnitPerpVector(s, n)
    ensures Dot(LabelNudgeVector(n), Displacement(s)) == 0.0
    ensures NormSq(LabelNudgeVector(n)) == LabelNudge * LabelNudge
  {
    DotTimes(LabelNudge, n, Displacement(s));
    NormSqTimes(LabelNudge, n);
  }

  /** Everything one render pass writes for one segment. */
  datatype Marks = Marks(
    groupOffset: Vector,
    labelAt: Point,
    labelNudge: Vector,
    labelValue: real,
    line: Segment,
    startArrowAt: Point,
    startArrowRotation: real,
    endArrowAt: Point,
    endArrowRotation: real)

  /**
   * The configurable measurement builder: the closure variables of
   * `distanceMeasure` and their chainable accessors.
   */
  class DistanceMeasure {
    var xScale: Scale
    var yScale: Scale
    var lineOffset: real
    var labelPosition: real

    constructor ()
      ensures xScale == IdentityScale && yScale == IdentityScale
      ensures lineOffset == DefaultLineOffset && labelPosition == DefaultLabelPosition
    {
      xScale := IdentityScale;
      yScale := IdentityScale;
      lineOffset := DefaultLineOffset;
      labelPosition := DefaultLabelPosition;
    }

    /** `chart.xScale([s])`: with no argument report the scale, otherwise replace it. */
    method XScale(arg: Option<Scale>) returns (current: Scale)
      modifies this
      ensures arg.None? ==> current == old(xScale) && unchanged(this)
      ensures arg.Some? ==> xScale == arg.value && current == arg.value
      ensures yScale == old(yScale) && lineOffset == old(lineOffset)
      ensures labelPosition == old(labelPosition)
    {
      if arg.Some? {
        xScale := arg.value;
      }
      current := xScale;
    }

    /** `chart.yScale([s])`. */
    method YScale(arg: Option<Scale>) returns (current: Scale)
      modifies this
      ensures arg.None? ==> current == old(yScale) && unchanged(this)
      ensures arg.Some? ==> yScale == arg.value && current == arg.value
      ensures xScale == old(xScale) && lineOffset == old(lineOffset)
      ensures labelPosition == old(labelPosition)
    {
      if arg.Some? {
        yScale := arg.value;
      }
      current := yScale;
    }

    /** `chart.lineOffset([o])`. */
    method LineOffset(arg: Option<real>) returns (current: real)
      modifies this
      ensures arg.None? ==> current == old(lineOffset) && unchanged(this)
      ensures arg.Some? ==> lineOffset == arg.value && current == arg.value
      ensures xScale == old(xScale) && yScale == old(yScale)
      ensures labelPosition == old(labelPosition)
    {
      if arg.Some? {
        lineOffset := arg.value;
      }
      current := lineOffset;
    }

    /**
     * `chart.labelPosition([p])`: any value is stored; one outside [0, 1]
     * only raises a warning (`warned`).
     */
    method LabelPosition(arg: Option<real>) returns (current: real, warned: bool)
      modifies this
      ensures arg.None? ==> current == old(labelPosition) && !warned && unchanged(this)
      ensures arg.Some? ==> labelPosition == arg.value && current == arg.value
      ensures arg.Some? ==> (warned <==> arg.value < 0.0 || arg.value > 1.0)
      ensures xScale == old(xScale) && yScale == old(yScale)
      ensures lineOffset == old(lineOffset)
    {
      warned := false;
      if arg.Some? {
        var p := arg.value;
        if p < 0.0 || p > 1.0 {
          warned := true;
        }
        labelPosition := p;
      }
      current := labelPosition;
    }

    /**
     * The numbers written for segment `s`. `u` and `n` are what `unitVector`
     * and `unitPerpVector` return for it, `dist` what `distanceBetweenPoints`
     * returns and `angleDeg` the edge direction in degrees.
     */
    function Render(s: Segment, u: Vector, n: Vector, dist: real, angleDeg: real): (m: Marks)
      reads this
      ensures m.endArrowRotation - m.startArrowRotation == 180.0
      ensures dist - 0.005 < m.labelValue <= dist + 0.005
      ensures Midpoint(m.line.start, m.line.end) == Midpoint(m.startArrowAt, m.endArrowAt)
      ensures m.startArrowAt == ScalePoint(xScale, yScale, s.start)
      ensures m.endArrowAt == ScalePoint(xScale, yScale, s.end)
      ensures m.labelAt == LabelAnchor(xScale, yScale, labelPosition, s)
      ensures m.startArrowRotation == StartArrowRotation(s, angleDeg)
      ensures m.line == InsetLine(xScale, yScale, s, u)
      ensures m.labelValue == RoundedLength(dist)
      ensures IsUnitPerpVector(s, n) ==>
                Dot(m.groupOffset, Displacement(s)) == 0.0 && NormSq(m.groupOffset) == lineOffset * lineOffset
      ensures IsUnitPerpVector(s, n) ==>
                Dot(m.labelNudge, Displacement(s)) == 0.0 && NormSq(m.labelNudge) == LabelNudge * LabelNudge
    {
      DotTimes(lineOffset, n, Displacement(s));
      NormSqTimes(lineOffset, n);
      DotTimes(LabelNudge, n, Displacement(s));
      NormSqTimes(LabelNudge, n);
      Marks(GroupOffset(lineOffset, n),
            LabelAnchor(xScale, yScale, labelPosition, s),
            LabelNudgeVector(n),
            RoundedLength(dist),
            InsetLine(xScale, yScale, s, u),
            ScalePoint(xScale, yScale, s.start),
            StartArrowRotation(s, angleDeg),
            ScalePoint(xScale, yScale, s.end),
            EndArrowRotation(s, angleDeg))
    }
  }
}

=== FILE: options.dfy ===
/** An optional value: the model's stand-in for an argument a caller may omit. */
module Options {

  datatype Option<+T> = None | Some(value: T)
}
